=== FILE: README.md ===
# Oil/gas test platform front end: access control and page logic in Dafny

This project models the decision logic of the oil/gas test-platform web
front end (React + TypeScript). Rendering and network I/O are left out;
the logic is stated as pure functions over immutable data. It covers:

- **Routing.** The route table (`ROUTES`), its groups, `getPath` and
  `isPathInGroup`, and the breadcrumb renderer that turns known routes into
  links.
- **Session.** The persisted session store (`token`, `userInfo`, `logout`,
  the `partialize` written to storage) and the application theme store.
- **HTTP client.** The request interceptor adds `Authorization: Bearer
  <token>`. The response interceptor rejects a non-200 envelope, rejects a
  transport failure and signs the user out on HTTP 401.
- **Route guards.** The status-aware `RouteGuard` decides between spinner,
  error panel, redirect and render. The simpler `RequireAuth` is the one
  the router actually mounts.
- **Auth pages.** The login page (return target, session fill), the
  first-deployment administrator page (field validators, submit-time checks,
  server outcome) and the registration form rules and banners.
- **Auth helpers.** The error-message tables, password strength, the
  system-status summary and the first-deployment test.
- **Shared helpers.** Pagination defaults, the id check, trimmed
  case-insensitive comparison, and the `formatDateTime` token substitution.
- **List pages.** The test-station and oil-sample tables:
  - sort translation, numeric filter coercion and page-result mapping;
  - the uniqueness validators for station and sample numbers;
  - the oil-sample parameter summary and enabled label.

Modules follow the source files: `Common` (JavaScript truthiness, `||`, `includes`,
`padStart`, `String(n)`, UTF-16 length), `Routes`, `Breadcrumb`, `AuthStore`,
`AppStore`, `Request`, `RouteGuard`, `Login`, `InitAdmin`, `Register`,
`AuthMessages`, `FeatureUtils`, `ListPages`, and `Scenarios` (journeys across
several modules).

**Modelling choices**

- **Truthiness.**
  - `null`/`undefined` is `None`.
  - A string test `!x` treats `""` as false; a number test treats `0` as false.
  - `a || b` on strings falls back on a falsy `a`.
  - `??` falls back only on a missing value.
- **Two length counts.** `String.length` counts UTF-16 code units: a
  character above U+FFFF counts twice (`Common.JsLength`). The form
  libraries' `min`/`max` rules count characters.
- **Replacement text.** `String.prototype.replace` with a string pattern
  replaces only the first occurrence. It expands `$$`, `$&`, `` $` `` and
  `$'` in the replacement.
- **Inputs instead of effects.** Server replies, query states and clocks
  become inputs: a validator takes the reply the server would give, and
  `formatDateTime` takes the calendar fields of the date.

## Model

| member | source | states |
|---|---|---|
| Routes.Path | src/router/routes.ts:7-26 | every route is an absolute path longer than `/` and contains no `:` placeholder |
| Routes.PathsDistinct | src/router/routes.ts:7-26 | no two route keys share a path |
| Routes.IsPathInGroup | src/router/routes.ts:62-64 | a path is in a group iff it is the path of one of the group's route keys |
| Routes.AuthGroupExactly | src/router/routes.ts:32-33 | the AUTH group holds exactly `/login`, `/register`, `/init-admin` |
| Routes.GroupsPartitionRoutes | src/router/routes.ts:32-38 | every route lies in exactly the group that lists its key |
| Routes.ExpandReplacement | src/router/routes.ts:52 | a replacement without `$` is inserted verbatim |
| Routes.ReplaceFirstAt | src/router/routes.ts:52 | `replace` with a string pattern rewrites only the first occurrence and keeps the text around it |
| Routes.ReplaceFirstAbsent | src/router/routes.ts:52 | a pattern that does not occur leaves the path unchanged |
| Routes.ApplyParamsWithoutPlaceholders | src/router/routes.ts:50-54 | on a path without `:` no sequence of parameter replacements changes anything |
| Routes.GetPath | src/router/routes.ts:44-57 | `getPath` returns `ROUTES[key]` whatever parameters are given |
| Breadcrumb.RoutablePathsExactly | src/utils/breadcrumb.tsx:7 | the routable set is the root path plus every route path, and nothing else |
| Breadcrumb.TitleOf | src/utils/breadcrumb.tsx:12 | the title falls back to `breadcrumbName` only when `title` is missing, not when it is empty |
| Breadcrumb.ItemRender | src/utils/breadcrumb.tsx:11-19 | an item renders nothing iff its title is falsy, and a link iff it is not last and its `href` is truthy and routable |
| Breadcrumb.RenderItems | src/utils/breadcrumb.tsx:9-21 | one rendering per item in order, each earlier item rendered as not last and the last one as last, so it is never a link; every link is routable |
| Breadcrumb.LinksLeadToRoutes | src/utils/breadcrumb.tsx:7-19 | every breadcrumb link leads to `/` or to a route of the table |
| AuthStore.SetToken | src/store/useAuthStore.ts:18 | `setToken` writes the token and keeps the user info |
| AuthStore.SetUserInfo | src/store/useAuthStore.ts:19 | `setUserInfo` writes the user info and keeps the token |
| AuthStore.Logout | src/store/useAuthStore.ts:20 | `logout` clears both fields, so no token remains |
| AuthStore.LogoutIdempotent | src/store/useAuthStore.ts:16-20 | logging out twice is logging out once, and yields the initial state |
| AuthStore.ReplaySnoc | src/store/useAuthStore.ts:18-20 | replaying a history extended by one action applies that action last |
| AuthStore.ReplayToken | src/store/useAuthStore.ts:16-20 | after any history the token is the one written by the last `setToken`/`logout`, else the starting token |
| AuthStore.Partialize | src/store/useAuthStore.ts:24 | only the token and the user info are persisted |
| AuthStore.Rehydrate | src/store/useAuthStore.ts:22-25 | rehydration restores exactly the persisted token and user info |
| AuthStore.PersistRoundTrip | src/store/useAuthStore.ts:13-27 | rehydrating the persisted part gives the session back |
| AppStore.ToggleTheme | src/store/useAppStore.ts:10 | toggling always changes the theme, light to dark and dark to light |
| AppStore.ToggleTwice | src/store/useAppStore.ts:10 | toggling twice restores the theme |
| AppStore.ThemeParity | src/store/useAppStore.ts:9-10 | from the initial light theme, the theme is light exactly after an even number of toggles |
| Request.AttachToken | src/utils/request.ts:11-16 | with a truthy token the Authorization header is `Bearer <token>` and every other header is kept; with none the headers are unchanged |
| Request.BearerHeaderCarriesToken | src/utils/request.ts:13-15 | the token can be read back from the header after the `Bearer ` prefix |
| Request.OnResponse | src/utils/request.ts:24-31 | a code 200 envelope resolves unchanged; any other code rejects and notifies with the envelope's message or `Request Error`; the session is untouched |
| Request.TransportErrorText | src/utils/request.ts:33 | the notification text is the body message, else the error message, else `Request Error`, and never empty |
| Request.OnError | src/utils/request.ts:32-41 | a transport failure always notifies and rejects with the original error; a 401 signs the user out and any other status keeps the session |
| Request.OnlyUnauthorizedSignsOut | src/utils/request.ts:36-38 | the failure handler changes the session iff the status is 401 and the session was not already empty |
| RouteGuard.Guard | src/components/RouteGuard.tsx:17-115 | the spinner shows exactly while probing, the error panel exactly on a failed probe for a signed-out protected page away from login/register, and every redirect replaces history and targets init-admin, login or dashboard |
| RouteGuard.RequireAuthDefaultsToTrue | src/components/RouteGuard.tsx:17 | an omitted `requireAuth` behaves as `true` |
| RouteGuard.UninitializedInitAdminRenders | src/components/RouteGuard.tsx:73-77 | on a first deployment the init-admin page renders |
| RouteGuard.UninitializedSignedOutGoesToInitAdmin | src/components/RouteGuard.tsx:79-89 | on a first deployment a signed-out visitor of a protected page or of login/register is sent to init-admin |
| RouteGuard.InitializedInitAdminGoesToLogin | src/components/RouteGuard.tsx:95-97 | once initialized, init-admin redirects to login |
| RouteGuard.InitializedAuthRedirects | src/components/RouteGuard.tsx:99-109 | once initialized, a signed-out protected visit goes to login and a signed-in visit to login/register goes to the dashboard |
| RouteGuard.GuardTable | src/components/RouteGuard.tsx:32-114 | the complete decision table: each outcome holds iff its stated condition holds |
| RouteGuard.RedirectTargetsFollowStatus | src/components/RouteGuard.tsx:68-111 | before initialization every redirect goes to init-admin; after it, never |
| RouteGuard.RequireAuth | src/components/RequireAuth.tsx:9-16 | children render iff the token is truthy; otherwise a replacing redirect to `/login` carries the current location |
| RouteGuard.RequireAuthIgnoresLocation | src/components/RequireAuth.tsx:9-16 | whether the page renders depends on the token alone |
| RouteGuard.RequireAuthAgreesWithGuard | src/components/RouteGuard.tsx:93-101 | on a settled, initialized system both gates render the same protected pages and send the same visitors to login |
| Login.ReturnTarget | src/pages/Login/index.tsx:18 | the page returns to the `from` pathname when there is a non-empty one, else to `/dashboard` |
| Login.OnFinish | src/pages/Login/index.tsx:20-30 | a failed login changes nothing; a successful one stores the response's token and user and replaces the page with the return target |
| Login.LoginOverwritesSession | src/pages/Login/index.tsx:23-28 | after a successful login the earlier session does not matter, and a non-empty token signs the user in |
| InitAdmin.Edit | src/pages/InitAdmin/index.tsx:192-205 | edits never change the disabled username field |
| InitAdmin.UsernameStaysAdmin | src/pages/InitAdmin/index.tsx:192-205 | whatever is typed, the username stays `admin` |
| InitAdmin.ValidatePassword | src/pages/InitAdmin/index.tsx:93-104 | a password passes iff its UTF-16 length is 6 to 30, with distinct texts for empty, short and long |
| InitAdmin.ValidateConfirmPassword | src/pages/InitAdmin/index.tsx:106-114 | the confirmation passes iff it is non-empty and equals the password |
| InitAdmin.PreCheck | src/pages/InitAdmin/index.tsx:49-57 | a mismatch is reported first, then a length outside 6 to 30 |
| InitAdmin.PreCheckMatchesValidators | src/pages/InitAdmin/index.tsx:49-57 | the submit-time checks accept exactly what both field validators accept |
| InitAdmin.RequestOf | src/pages/InitAdmin/index.tsx:60-63 | the request carries the two passwords as entered |
| InitAdmin.OnFinish | src/pages/InitAdmin/index.tsx:46-90 | a local failure sends nothing; success shows the created user and probes again; a code-400 "已存在" failure returns to login; any other failure shows the server text or the default |
| InitAdmin.OutcomeIgnoresUsername | src/pages/InitAdmin/index.tsx:59-63 | the username in the form never influences the outcome |
| InitAdmin.LocalRejectionSendsNothing | src/pages/InitAdmin/index.tsx:49-57 | a locally rejected submission has the same outcome whatever the server would answer |
| InitAdmin.GoLogin | src/pages/InitAdmin/index.tsx:36-43 | leaving for login replaces the page with `/login` whether or not the status refresh failed |
| InitAdmin.GoLoginIgnoresRefresh | src/pages/InitAdmin/index.tsx:36-43 | a refresh that throws and one that succeeds lead to the same navigation |
| Register.LengthRuleErrors | src/pages/Register/index.tsx:70-83 | a field passes iff it is non-empty and its character count is within bounds; empty reports only the required text |
| Register.UsernameErrors | src/pages/Register/index.tsx:70-73 | a username passes iff it has 3 to 20 characters |
| Register.PasswordErrors | src/pages/Register/index.tsx:80-83 | a password passes iff it has 6 to 30 characters |
| Register.ConfirmValidator | src/pages/Register/index.tsx:94-100 | the custom rule accepts an empty value and otherwise exactly the password |
| Register.ConfirmErrors | src/pages/Register/index.tsx:92-101 | the confirmation passes iff it is present and equals the password |
| Register.ShowsInitBanner | src/pages/Register/index.tsx:39 | the not-initialized banner shows iff the probe has data saying first deployment |
| Register.ShowsProbeAlert | src/pages/Register/index.tsx:56 | the status-check warning shows iff the status query failed |
| Register.ProbeFailureReportedOnPage | src/pages/Register/index.tsx:56 | on `/register` a failed status query never brings up the guard's retry panel; the page's own warning shows, and with no status data the page renders |
| Register.PasswordRulesAgreeInBmp | src/pages/Register/index.tsx:80-83 | on text inside the Basic Multilingual Plane the registration password rule and the first-deployment validator accept the same passwords |
| Register.PasswordRulesDisagreeOnAstral | src/pages/Register/index.tsx:80-83 | three emoji are too short to register yet pass the first-deployment validator, which counts six UTF-16 units |
| Register.AdminUsernameRegistrable | src/pages/Register/index.tsx:70-73 | the fixed `admin` name of a first deployment meets the registration username rule |
| Register.ConfirmRulesAgree | src/pages/Register/index.tsx:92-101 | the registration and first-deployment forms refuse exactly the same confirmations |
| Register.AfterRegister | src/pages/Register/index.tsx:24-32 | only a successful registration navigates, and it pushes `/login` without replacing |
| AuthMessages.HandleAuthError | src/features/auth/utils.ts:11-46 | a 400 maps to the duplicate text, then the password text, then the message or a default; 401, 403, 404, 500, 502 and 503 each get their own fixed text; otherwise the message or the network text; never empty |
| AuthMessages.FixedStatusesIgnoreMessage | src/features/auth/utils.ts:25-41 | for 401, 403, 404, 500, 502 and 503 the error's message is ignored |
| AuthMessages.HandleSystemStatusError | src/features/auth/utils.ts:51-67 | 404 and 500 get fixed texts, a missing status means unreachable, any other status is quoted |
| AuthMessages.QuotedStatus | src/features/auth/utils.ts:51-67 | a positive status other than 404 and 500 appears in decimal right after the failure prefix, before the closing `)` |
| AuthMessages.StatusTextIdentifiesStatus | src/features/auth/utils.ts:51-67 | on positive statuses two errors get the same text iff they carry the same status |
| AuthMessages.HandleInitAdminError | src/features/auth/utils.ts:72-97 | the init-admin table: 400 as above with its own password text, fixed 409 and 500 texts, else the message or a default |
| AuthMessages.BadRequestTablesAgreeOnDuplicates | src/features/auth/utils.ts:16-19 | both 400 tables give the duplicate-admin text when the message contains "已存在" |
| AuthMessages.StrengthScore | src/features/auth/utils.ts:112-117 | the score counts the character classes used, at most 4, and is 0 iff none is used |
| AuthMessages.ValidatePasswordStrength | src/features/auth/utils.ts:102-126 | valid iff the UTF-16 length is 6 to 30; a valid password is weak below 2 classes, medium at 2, strong at 3 or more |
| AuthMessages.ScoreMonotone | src/features/auth/utils.ts:112-117 | appending a character never lowers the score |
| AuthMessages.FormatSystemStatus | src/features/auth/utils.ts:131-153 | the healthy text appears iff initialized, healthy and connected; the database text iff initialized and disconnected |
| AuthMessages.IsFirstDeployment | src/features/auth/utils.ts:158-160 | as written: true iff the object is present and `initialized` is not `true` |
| AuthMessages.IsFirstDeploymentFromProbe | src/components/RouteGuard.tsx:70-73 | the first-deployment test on the probe payload holds iff `firstDeployment` is `true` |
| AuthMessages.IsFirstDeploymentMisreadsProbe | src/features/auth/utils.ts:158-160 | on the probe payload of an initialized system the helper answers "first deployment" |
| AuthMessages.IsFirstDeploymentOnHealthRecord | src/features/auth/utils.ts:140-160 | on a health record the helper is `!initialized`, which is exactly when the summary says not initialized |
| AuthMessages.FriendlyErrorMessage | src/features/auth/utils.ts:165-183 | login and register use the auth table, init-admin its own, system-status the status table, anything else a fixed text |
| FeatureUtils.FormatPagination | src/features/utils.ts:34-40 | a falsy page becomes 1, a falsy size 10, the size is capped at 100, and other fields are kept |
| FeatureUtils.FormatPaginationIdempotent | src/features/utils.ts:34-40 | formatting already formatted parameters changes nothing |
| FeatureUtils.IsValidId | src/features/utils.ts:47-49 | an id is valid iff it is a number greater than zero |
| FeatureUtils.IntegerIdValidity | src/features/utils.ts:47-49 | an integer id is valid iff it is at least 1, and the same id as a string never is |
| FeatureUtils.TrimStart | src/features/utils.ts:61 | trimming the start removes exactly a leading run of white space |
| FeatureUtils.TrimEnd | src/features/utils.ts:61 | trimming the end removes exactly a trailing run of white space |
| FeatureUtils.ToLower | src/features/utils.ts:61 | lower-casing keeps the length and maps each character on its own |
| FeatureUtils.SafeStringEquals | src/features/utils.ts:57-62 | false when either side is missing, else equality of the trimmed, lower-cased texts |
| FeatureUtils.SafeStringEqualsEquivalence | src/features/utils.ts:57-62 | on present strings the comparison is reflexive, symmetric and transitive |
| FeatureUtils.SafeStringEqualsIgnoresPadding | src/features/utils.ts:57-62 | any leading and any trailing white space, in independent amounts, and ASCII letter case never change the comparison |
| FeatureUtils.TokenAt | src/features/utils.ts:130 | at most one date token matches at a position, and the one returned does |
| FeatureUtils.TokenFreeFormatCopied | src/features/utils.ts:130 | a format with no tokens is returned unchanged |
| FeatureUtils.FormatDateTime | src/features/utils.ts:117-131 | an omitted format gives the `YYYY-MM-DD HH:mm:ss` layout of the fields, and a format without tokens is returned unchanged |
| FeatureUtils.FormatDateTimeToken | src/features/utils.ts:120-130 | in any format a leading token is replaced by its field value and the rest of the format is formatted on |
| FeatureUtils.FormatDateTimeLiteral | src/features/utils.ts:130 | in any format a leading character that starts no token, even a lone token letter, is copied and the rest is formatted on |
| FeatureUtils.MilliReplacementDenotes | src/features/utils.ts:127 | `SSS` becomes the milliseconds as exactly three digits denoting them |
| FeatureUtils.SecondsAndMillisFormat | src/features/utils.ts:117-131 | the custom format `ss.SSS` gives the padded seconds, a dot and the three-digit milliseconds |
| FeatureUtils.DefaultFormatLayout | src/features/utils.ts:117-130 | the default format yields year, month, day, hour, minute and second with `-`, space and `:` separators |
| FeatureUtils.DefaultFormatRoundTrip | src/features/utils.ts:117-130 | for a four-digit year and in-range fields, the default output parses back to the date without milliseconds |
| ListPages.OrderOf | src/pages/TestStationList/index.tsx:339-340 | `ascend` maps to asc, `descend` to desc, and only those |
| ListPages.TranslateSort | src/pages/TestStationList/index.tsx:335-341 | the sort field is the first sort key, and an empty sort gives neither field nor order |
| ListPages.SortOrderFollowsFirstKey | src/pages/TestStationList/index.tsx:335-341 | the order sent depends on the first key's value alone, in both directions |
| ListPages.SortIgnoresLaterKeys | src/pages/TestStationList/index.tsx:336-338 | keys after the first never change the request |
| ListPages.TablesShareSortTranslation | src/pages/OilSampleList/index.tsx:320-326 | the oil-sample table sends the same sort as the test-station table |
| ListPages.ToTableResult | src/pages/TestStationList/index.tsx:356-367 | a page reply maps to its rows and total with success; a failure maps to no rows, total 0, no success |
| ListPages.TableResultRoundTrip | src/pages/OilSampleList/index.tsx:340-352 | a successful mapping loses nothing of the page |
| ListPages.TruthyNumberFilter | src/pages/TestStationList/index.tsx:347 | a numeric filter is sent iff it is present and non-zero, and then unchanged |
| ListPages.StationNoFilter | src/pages/TestStationList/index.tsx:347 | every station number from 1 up is sent as entered |
| ListPages.CylinderNoFilterAsWritten | src/pages/OilSampleList/index.tsx:336 | as written: a cylinder filter, when sent, is the value entered |
| ListPages.CylinderZeroFilterDropped | src/pages/OilSampleList/index.tsx:336 | as written, cylinder 0 is accepted by the form yet sends no filter |
| ListPages.CylinderNoFilter | src/pages/OilSampleList/index.tsx:336 | corrected: every cylinder number from 0 up is sent as entered |
| ListPages.CylinderFiltersDifferOnlyAtZero | src/pages/OilSampleList/index.tsx:336 | the written and corrected filters differ exactly on 0 |
| ListPages.StationQueryOf | src/pages/TestStationList/index.tsx:344-355 | the station query carries the page, size, coerced station number and translated sort |
| ListPages.SampleQueryOf | src/pages/OilSampleList/index.tsx:329-339 | the sample query carries the page, size, sample number and translated sort, and a cylinder filter iff a non-zero cylinder number was entered |
| ListPages.SampleQueryOfIntended | src/pages/OilSampleList/index.tsx:329-339 | corrected: the same query, with every entered cylinder number from 0 up sent as the filter |
| ListPages.SampleQueriesDifferOnlyAtZero | src/pages/OilSampleList/index.tsx:336 | the sent and the corrected query differ exactly on a search for cylinder 0, where the sent one has no cylinder filter |
| ListPages.Judge | src/pages/TestStationList/index.tsx:62-64 | the server's answer is accepted iff it says unique; a refusal carries the taken text; a failed call is passed on |
| ListPages.StationNoValidator | src/pages/TestStationList/index.tsx:58-65 | a falsy value, or one equal to a truthy current number, passes without a server call; anything sent is the value itself |
| ListPages.StationNoServerDecides | src/pages/TestStationList/index.tsx:62-64 | otherwise the value is sent and passes iff the server says it is unique |
| ListPages.CreateStationNoCheck | src/pages/TestStationList/index.tsx:410 | the create form calls the server iff the value is truthy |
| ListPages.EditStationNoCheck | src/pages/TestStationList/index.tsx:557 | the edit form lets the row's unchanged non-zero number through unchecked |
| ListPages.EditCheckRelaxesCreate | src/pages/TestStationList/index.tsx:557 | editing differs from creating only by accepting the unchanged number, and without a row it is creating |
| ListPages.CreateSampleNoCheck | src/pages/OilSampleList/index.tsx:404-409 | an empty sample number passes unchecked; otherwise it is sent and passes iff the server says unique |
| ListPages.EditSampleNoCheck | src/pages/OilSampleList/index.tsx:543-549 | the row's unchanged sample number passes without a server call |
| ListPages.EditSampleAgreesWithCreate | src/pages/OilSampleList/index.tsx:543-549 | a changed sample number is judged exactly as on creation |
| ListPages.Summarize | src/pages/OilSampleList/index.tsx:129-159 | no parameters give `-`; otherwise the first min(3, n) are shown, shown + rest = n, and the `+rest` tag with a full tooltip appears iff n > 3 |
| ListPages.SummaryAccountsForAll | src/pages/OilSampleList/index.tsx:130-131 | the shown tags followed by the hidden parameters are all the parameters |
| ListPages.MoreTagIffHidden | src/pages/OilSampleList/index.tsx:139 | the `+rest` count is positive iff there are more than three parameters |
| ListPages.FindOption | src/pages/OilSampleList/index.tsx:195 | the lookup returns an option whose value equals the flag, or none when no option matches |
| ListPages.EnabledCellOf | src/pages/OilSampleList/index.tsx:194-203 | true shows a success-coloured 启用 tag and false a default-coloured 禁用 tag |
| ListPages.EnabledFallbackOnlyWhenMissing | src/pages/OilSampleList/index.tsx:196-202 | plain text appears iff the flag is missing, and it is 禁用 |
| ListPages.StationEnabledCell | src/pages/TestStationList/index.tsx:225 | the station table always shows a tag, 启用 iff the flag is true |
| ListPages.EnabledCellsAgree | src/pages/TestStationList/index.tsx:225 | on a present flag both tables show the same cell |
| Scenarios.ExpiredSessionLeadsToLogin | src/utils/request.ts:36-38 | after a 401 the next protected page redirects to `/login`, remembering the location |
| Scenarios.LoginReturnsToProtectedPage | src/pages/Login/index.tsx:18-29 | a redirected visitor who logs in returns to the page they asked for, which then renders |
| Scenarios.OtherFailuresKeepAccess | src/utils/request.ts:32-41 | a failure other than 401 never locks a signed-in user out |
| Common.FindFrom | src/router/routes.ts:64 | the search returns the first occurrence at or after the start, or none if there is none |
| Common.IncludesIff | src/router/routes.ts:64 | `includes` holds iff the pattern occurs somewhere |
| Common.SeqIncludes | src/router/routes.ts:64 | an array `includes` a value iff the value is one of its elements |
| Common.JsLength | src/features/auth/utils.ts:103-107 | the UTF-16 length lies between the character count and twice it |
| Common.JsLengthInBmp | src/pages/InitAdmin/index.tsx:93-104 | on text inside the Basic Multilingual Plane the UTF-16 length is the character count |
| Common.NatToStringRoundTrip | src/features/utils.ts:121-127 | the decimal text of a number denotes that number |
| Common.PadStart | src/features/utils.ts:122-127 | padding never truncates, keeps the text as a suffix and fills only with the pad character |
| Common.PaddedDecimalValue | src/features/utils.ts:122-127 | a zero-padded decimal still denotes the same number |

## Left out

- Rendering, styles, spinners, toasts' timing, modals and the `console` logging are not modelled; a notification is the text it would show.
- Network I/O and React Query caching: server replies and probe states are inputs. `refetch`, `invalidate` and `fetchQuery` are not modelled beyond the `reprobe` flag of the init-admin success.
- The 1.5-second `setTimeout` before the duplicate-admin redirect is not modelled; the redirect itself is.
- `formatFileSize` needs logarithms and floating-point rounding, so it is left out.
- `delay`, `deepClone`, `isMobile` and `getCurrentTimestamp` are timers, JSON round trips or window and clock reads, so they are left out.
- `handleApiError` / `handleApiSuccess` and `showAuthErrorMessage` / `showAuthSuccessMessage` only call the toast API, so they are left out.
- FeatureUtils.FormatDateTime: the calendar fields are inputs; building a `Date` from a timestamp, the local time zone and invalid dates are not modelled.
- FeatureUtils.ToLower: only ASCII letters are lower-cased; the full Unicode case mapping of `toLowerCase` is not modelled.
- FeatureUtils.IsValidId: NaN and infinities are not modelled; numbers are reals.
- Breadcrumb.RenderItems: the last item is found by position, whereas the source compares object identity with the last array element; the two differ only when the same item object appears twice.
- AuthMessages.FriendlyErrorMessage: the source's `default` branch is unreachable for its typed contexts; it is modelled as a fifth context.
- ListPages.StationQueryOf, ListPages.SampleQueryOf and ListPages.SampleQueryOfIntended: the text and select filters (`stationName`, `usage`, `valveCommType`, `responsiblePerson`, `enabled`, `sampleName`) are passed through unchanged by the source and are not carried.
- The list pages' create, update, delete, enable and disable mutations only call the API and reload the table, so they are left out.
- The date conversions in the oil-sample submit handlers depend on a date library, so they are left out.
- The type of the probe's payload is not part of this model; its shape `data.data.firstDeployment` is taken from the guard's use of it.
- The router mounts `RequireAuth`, not `RouteGuard`; both are modelled, and `RouteGuard.RequireAuthAgreesWithGuard` states where they agree.
- `RouteGuard.Guard`: `children || <Outlet />` is one `Render` decision.

## Findings

| source | as written | input that shows it | evidently intended | confidence | as-written member | corrected member |
|---|---|---|---|---|---|---|
| src/features/auth/utils.ts:158-160 | `isFirstDeployment` reads `initialized`, but the status probe's payload carries `firstDeployment` | `{firstDeployment: false}` from an initialized system gives `true` | the test the guard applies: `firstDeployment === true` | medium, not executed | AuthMessages.IsFirstDeploymentMisreadsProbe | AuthMessages.IsFirstDeploymentFromProbe |
| src/pages/OilSampleList/index.tsx:336 | the cylinder filter is sent only when truthy, yet the form accepts cylinder 0 (line 431) | searching for cylinder 0 sends no filter, so every sample is listed | send any entered cylinder number, 0 included | medium, not executed | ListPages.CylinderZeroFilterDropped | ListPages.SampleQueryOfIntended |

=== FILE: app_store.dfy ===
/** The application store: the colour theme and its toggle. */
module AppStore {

  /** `'light' | 'dark'`: the theme is always one of exactly two values. */
  datatype Theme = Light | Dark

  const InitialTheme: Theme := Light

  /** `toggleTheme`: light becomes dark and every other value becomes light. */
  function ToggleTheme(t: Theme): (r: Theme)
    ensures r != t
    ensures t == Light <==> r == Dark
  {
    if t == Light then Dark else Light
  }

  lemma ToggleTwice(t: Theme)
    ensures ToggleTheme(ToggleTheme(t)) == t
  {
  }

  /** The theme after `n` toggles. */
  function ToggleTimes(t: Theme, n: nat): Theme {
    if n == 0 then t else ToggleTheme(ToggleTimes(t, n - 1))
  }

  /** Starting from the initial theme, the theme is light exactly after an even number of toggles. */
  lemma {:induction false} ThemeParity(n: nat)
    ensures ToggleTimes(InitialTheme, n) == Light <==> n % 2 == 0
  {
    if n > 0 {
      ThemeParity(n - 1);
    }
  }
}

=== FILE: auth_messages.dfy ===
/**
  The authentication helpers: the status-code to message tables for
  login/register, init-admin and the status probe, the password strength
  check, the system-status summary and the first-deployment test.
 */
module AuthMessages {
  import opened Common

  /** The parts of an HTTP client error these helpers read. */
  datatype HttpError = HttpError(status: Option<int>, dataMessage: Option<string>, message: string)

  /** `error.response?.data?.message || error.message`. */
  function ErrorText(e: HttpError): string {
    OrElse(e.dataMessage, e.message)
  }

  const AdminExistsText: string := "系统已存在管理员，无法重复创建"
  const AuthBadPasswordText: string := "密码格式不正确或不符合要求"
  const BadRequestText: string := "请求参数错误"
  const UnauthorizedText: string := "认证失败，请检查用户名和密码"
  const ForbiddenText: string := "权限不足，无法访问"
  const NotFoundText: string := "请求的资源不存在"
  const ServerErrorText: string := "服务器内部错误，请稍后重试"
  const BadGatewayText: string := "网关错误，请检查网络连接"
  const UnavailableText: string := "服务暂时不可用，请稍后重试"
  const NetworkText: string := "网络错误，请检查连接"

  const ExistsMarker: string := "已存在"
  const PasswordMarker: string := "密码"

  /** The statuses `handleAuthError` answers with a fixed text. */
  predicate FixedAuthStatus(status: Option<int>) {
    status.Some? && status.value in {401, 403, 404, 500, 502, 503}
  }

  /** `handleAuthError`. */
  function HandleAuthError(e: HttpError): (text: string)
    ensures e.status == Some(400) && Includes(ErrorText(e), ExistsMarker) ==> text == AdminExistsText
    ensures e.status == Some(400) && !Includes(ErrorText(e), ExistsMarker) && Includes(ErrorText(e), PasswordMarker) ==>
      text == AuthBadPasswordText
    ensures e.status == Some(400) && !Includes(ErrorText(e), ExistsMarker) && !Includes(ErrorText(e), PasswordMarker) ==>
      text == (if ErrorText(e) != "" then ErrorText(e) else BadRequestText)
    ensures e.status == Some(401) ==> text == UnauthorizedText
    ensures e.status == Some(403) ==> text == ForbiddenText
    ensures e.status == Some(404) ==> text == NotFoundText
    ensures e.status == Some(500) ==> text == ServerErrorText
    ensures e.status == Some(502) ==> text == BadGatewayText
    ensures e.status == Some(503) ==> text == UnavailableText
    ensures !FixedAuthStatus(e.status) && e.status != Some(400) ==>
      text == (if ErrorText(e) != "" then ErrorText(e) else NetworkText)
    ensures text != ""
  {
    var msg := ErrorText(e);
    match e.status
    case Some(400) =>
      if Includes(msg, ExistsMarker) then AdminExistsText
      else if Includes(msg, PasswordMarker) then AuthBadPasswordText
      else OrElse(Some(msg), BadRequestText)
    case Some(401) => UnauthorizedText
    case Some(403) => ForbiddenText
    case Some(404) => NotFoundText
    case Some(500) => ServerErrorText
    case Some(502) => BadGatewayText
    case Some(503) => UnavailableText
    case _ => OrElse(Some(msg), NetworkText)
  }

  /** For the fixed statuses the message text of the error is ignored entirely. */
  lemma FixedStatusesIgnoreMessage(e1: HttpError, e2: HttpError)
    requires e1.status == e2.status && FixedAuthStatus(e1.status)
    ensures HandleAuthError(e1) == HandleAuthError(e2)
    ensures HandleAuthError(e1) in {UnauthorizedText, ForbiddenText, NotFoundText, ServerErrorText, BadGatewayText, UnavailableText}
  {
  }

  const StatusNotFoundText: string := "系统状态接口不存在，请检查后端服务"
  const StatusServerErrorText: string := "系统状态检测失败，服务器内部错误"
  const StatusUnreachableText: string := "无法连接到服务器，请检查网络连接"
  const StatusFailedPrefix: string := "系统状态检测失败 (错误码: "

  /** `handleSystemStatusError`: a missing (or zero) status means the server was not reached. */
  function HandleSystemStatusError(e: HttpError): (text: string)
    ensures e.status == Some(404) ==> text == StatusNotFoundText
    ensures e.status == Some(500) ==> text == StatusServerErrorText
    ensures !TruthyInt(e.status) ==> text == StatusUnreachableText
    ensures TruthyInt(e.status) && e.status.value !in {404, 500} ==>
      text == StatusFailedPrefix + IntToString(e.status.value) + ")"
  {
    if e.status == Some(404) then StatusNotFoundText
    else if e.status == Some(500) then StatusServerErrorText
    else if !TruthyInt(e.status) then StatusUnreachableText
    else StatusFailedPrefix + IntToString(e.status.value) + ")"
  }

  /** A positive status outside 404 and 500 is quoted in decimal between the prefix and `)`. */
  lemma QuotedStatus(e: HttpError)
    requires e.status.Some? && e.status.value > 0 && e.status.value !in {404, 500}
    ensures var t := HandleSystemStatusError(e);
      |t| > |StatusFailedPrefix| && t[..|StatusFailedPrefix|] == StatusFailedPrefix
      && t[|StatusFailedPrefix|..|t| - 1] == NatToString(e.status.value)
  {
    var t := HandleSystemStatusError(e);
    var digits := NatToString(e.status.value);
    assert t == StatusFailedPrefix + digits + ")";
    assert t[..|StatusFailedPrefix|] == StatusFailedPrefix;
    assert t[|StatusFailedPrefix|..|t| - 1] == digits;
  }

  /**
    On positive statuses the text tells the status apart: two errors get
    the same text exactly when they carry the same status.
   */
  lemma {:induction false} StatusTextIdentifiesStatus(e1: HttpError, e2: HttpError)
    requires e1.status.Some? && e1.status.value > 0
    requires e2.status.Some? && e2.status.value > 0
    ensures HandleSystemStatusError(e1) == HandleSystemStatusError(e2) <==> e1.status == e2.status
  {
    var t1 := HandleSystemStatusError(e1);
    var t2 := HandleSystemStatusError(e2);
    var n := |StatusFailedPrefix|;
    assert StatusFailedPrefix[8] == ' ' && StatusServerErrorText[8] != ' ' && StatusNotFoundText[8] != ' ';
    assert StatusNotFoundText[4] != StatusServerErrorText[4];
    if t1 == t2 {
      var quoted1 := e1.status.value !in {404, 500};
      var quoted2 := e2.status.value !in {404, 500};
      if quoted1 {
        QuotedStatus(e1);
        assert t1[8] == ' ';
      }
      if quoted2 {
        QuotedStatus(e2);
        assert t2[8] == ' ';
      }
      if quoted1 && quoted2 {
        assert NatToString(e1.status.value) == t1[n..|t1| - 1] == NatToString(e2.status.value);
        NatToStringRoundTrip(e1.status.value);
        NatToStringRoundTrip(e2.status.value);
      }
    }
  }

  const InitBadPasswordText: string := "密码不符合要求（6-30位字符）"
  const InitConflictText: string := "系统正在初始化中，请勿重复提交"
  const InitServerErrorText: string := "服务器错误，管理员创建失败"
  const InitDefaultText: string := "创建管理员失败，请稍后重试"

  /** `handleInitAdminError`. */
  function HandleInitAdminError(e: HttpError): (text: string)
    ensures e.status == Some(400) && Includes(ErrorText(e), ExistsMarker) ==> text == AdminExistsText
    ensures e.status == Some(400) && !Includes(ErrorText(e), ExistsMarker) && Includes(ErrorText(e), PasswordMarker) ==>
      text == InitBadPasswordText
    ensures e.status == Some(400) && !Includes(ErrorText(e), ExistsMarker) && !Includes(ErrorText(e), PasswordMarker) ==>
      text == (if ErrorText(e) != "" then ErrorText(e) else BadRequestText)
    ensures e.status == Some(409) ==> text == InitConflictText
    ensures e.status == Some(500) ==> text == InitServerErrorText
    ensures e.status !in {Some(400), Some(409), Some(500)} ==>
      text == (if ErrorText(e) != "" then ErrorText(e) else InitDefaultText)
    ensures text != ""
  {
    var msg := ErrorText(e);
    if e.status == Some(400) then
      if Includes(msg, ExistsMarker) then AdminExistsText
      else if Includes(msg, PasswordMarker) then InitBadPasswordText
      else OrElse(Some(msg), BadRequestText)
    else if e.status == Some(409) then InitConflictText
    else if e.status == Some(500) then InitServerErrorText
    else OrElse(Some(msg), InitDefaultText)
  }

  /**
    Both 400 tables check "已存在" before "密码": a message holding both
    words yields the same duplicate-admin text from either table.
   */
  lemma BadRequestTablesAgreeOnDuplicates(e: HttpError)
    requires e.status == Some(400) && Includes(ErrorText(e), ExistsMarker)
    ensures HandleAuthError(e) == HandleInitAdminError(e) == AdminExistsText
  {
  }

  // ---------------------------------------------------------------------
  // validatePasswordStrength
  // ---------------------------------------------------------------------

  predicate HasUpper(p: string) { exists i :: 0 <= i < |p| && 'A' <= p[i] <= 'Z' }
  predicate HasLower(p: string) { exists i :: 0 <= i < |p| && 'a' <= p[i] <= 'z' }
  predicate HasDigit(p: string) { exists i :: 0 <= i < |p| && IsDigit(p[i]) }

  /** The class `[!@#$%^&*(),.?":{}|<>]`. */
  predicate IsSpecial(c: char) {
    c in "!@#$%^&*(),.?\":{}|<>"
  }

  predicate HasSpecial(p: string) { exists i :: 0 <= i < |p| && IsSpecial(p[i]) }

  function Count(b: bool): nat { if b then 1 else 0 }

  /** How many of the four character classes the password uses. */
  function StrengthScore(p: string): (score: nat)
    ensures score <= 4
    ensures score == 0 <==> !HasUpper(p) && !HasLower(p) && !HasDigit(p) && !HasSpecial(p)
  {
    Count(HasUpper(p)) + Count(HasLower(p)) + Count(HasDigit(p)) + Count(HasSpecial(p))
  }

  datatype Strength = Strength(valid: bool, message: string)

  const TooShortText: string := "密码至少6位"
  const TooLongText: string := "密码最多30位"
  const WeakText: string := "密码强度：弱（建议包含大小写字母和数字）"
  const MediumText: string := "密码强度：中"
  const StrongText: string := "密码强度：强"

  /**
    `validatePasswordStrength`: valid exactly when the JavaScript length is
    within [6, 30]; a valid password is labelled weak, medium or strong by
    how many character classes it uses.
   */
  function ValidatePasswordStrength(p: string): (r: Strength)
    ensures r.valid <==> 6 <= JsLength(p) <= 30
    ensures JsLength(p) < 6 ==> r.message == TooShortText
    ensures JsLength(p) > 30 ==> r.message == TooLongText
    ensures r.valid && StrengthScore(p) < 2 ==> r.message == WeakText
    ensures r.valid && StrengthScore(p) == 2 ==> r.message == MediumText
    ensures r.valid && StrengthScore(p) >= 3 ==> r.message == StrongText
  {
    if p == "" || JsLength(p) < 6 then Strength(false, TooShortText)
    else if JsLength(p) > 30 then Strength(false, TooLongText)
    else
      var score := StrengthScore(p);
      if score < 2 then Strength(true, WeakText)
      else if score < 3 then Strength(true, MediumText)
      else Strength(true, StrongText)
  }

  /** Adding a character of a new class never lowers the strength score. */
  lemma ScoreMonotone(p: string, c: char)
    ensures StrengthScore(p + [c]) >= StrengthScore(p)
  {
    var q := p + [c];
    forall i | 0 <= i < |p|
      ensures q[i] == p[i]
    {
    }
  }

  // ---------------------------------------------------------------------
  // formatSystemStatus and isFirstDeployment
  // ---------------------------------------------------------------------

  /** The health record `formatSystemStatus` reads. */
  datatype HealthStatus = HealthStatus(initialized: bool, status: string, databaseConnected: bool)

  const UnknownStatusText: string := "未知状态"
  const NotInitializedText: string := "系统未初始化"
  const HealthyText: string := "系统运行正常"
  const DatabaseDownText: string := "数据库连接异常"
  const StatusPrefix: string := "系统状态: "

  /** `formatSystemStatus`: not-initialized wins, then healthy-and-connected, then disconnected. */
  function FormatSystemStatus(s: Option<HealthStatus>): (text: string)
    ensures s.None? ==> text == UnknownStatusText
    ensures s.Some? && !s.value.initialized ==> text == NotInitializedText
    ensures text == HealthyText <==> s.Some? && s.value.initialized && s.value.status == "healthy" && s.value.databaseConnected
    ensures text == DatabaseDownText <==> s.Some? && s.value.initialized && !s.value.databaseConnected
    ensures s.Some? && s.value.initialized && s.value.databaseConnected && s.value.status != "healthy" ==>
      text == StatusPrefix + s.value.status
  {
    match s
    case None => UnknownStatusText
    case Some(h) =>
      if !h.initialized then NotInitializedText
      else if h.status == "healthy" && h.databaseConnected then HealthyText
      else if !h.databaseConnected then DatabaseDownText
      else
        var t := StatusPrefix + h.status;
        assert t[2] == StatusPrefix[2] != HealthyText[2];
        assert t[0] == StatusPrefix[0] != DatabaseDownText[0];
        t
  }

  /**
    A status object as it arrives: each field may be absent. The probe's
    payload carries `firstDeployment`; the health record carries `initialized`.
   */
  datatype StatusFields = StatusFields(initialized: Option<bool>, firstDeployment: Option<bool>)

  /**
    `isFirstDeployment` as written: `systemStatus && !systemStatus.initialized`.
    An absent `initialized` reads as `undefined`, whose negation is true.
   */
  function IsFirstDeployment(s: Option<StatusFields>): (b: bool)
    ensures s.None? ==> !b
    ensures s.Some? && s.value.initialized.Some? ==> b == !s.value.initialized.value
    ensures s.Some? && s.value.initialized.None? ==> b
  {
    s.Some? && s.value.initialized != Some(true)
  }

  /** The first-deployment test the gate applies: it reads `firstDeployment` of the probe payload. */
  function IsFirstDeploymentFromProbe(s: Option<StatusFields>): (b: bool)
    ensures b <==> s.Some? && s.value.firstDeployment == Some(true)
  {
    s.Some? && s.value.firstDeployment.GetOr(false)
  }

  /**
    On the payload the probe returns for an initialized system,
    `{firstDeployment: false}`, the helper as written answers "first
    deployment", while the gate's reading answers "initialized".
   */
  lemma IsFirstDeploymentMisreadsProbe()
    ensures IsFirstDeployment(Some(StatusFields(None, Some(false))))
    ensures !IsFirstDeploymentFromProbe(Some(StatusFields(None, Some(false))))
  {
  }

  /** On a health record that has `initialized`, the helper is its negation. */
  lemma IsFirstDeploymentOnHealthRecord(h: HealthStatus)
    ensures IsFirstDeployment(Some(StatusFields(Some(h.initialized), None))) <==> !h.initialized
    ensures IsFirstDeployment(Some(StatusFields(Some(h.initialized), None))) <==>
      FormatSystemStatus(Some(h)) == NotInitializedText
  {
  }

  // ---------------------------------------------------------------------
  // getFriendlyErrorMessage
  // ---------------------------------------------------------------------

  datatype ErrorContext = LoginContext | RegisterContext | InitAdminContext | SystemStatusContext | OtherContext

  const FallbackText: string := "操作失败，请稍后重试"

  /** `getFriendlyErrorMessage`: which table answers for each context. */
  function FriendlyErrorMessage(e: HttpError, context: ErrorContext): (text: string)
    ensures context in {LoginContext, RegisterContext} ==> text == HandleAuthError(e)
    ensures context == InitAdminContext ==> text == HandleInitAdminError(e)
    ensures context == SystemStatusContext ==> text == HandleSystemStatusError(e)
    ensures context == OtherContext ==> text == FallbackText
  {
    match context
    case LoginContext => HandleAuthError(e)
    case RegisterContext => HandleAuthError(e)
    case InitAdminContext => HandleInitAdminError(e)
    case SystemStatusContext => HandleSystemStatusError(e)
    case OtherContext => FallbackText
  }
}

=== FILE: auth_store.dfy ===
/**
  The persisted session store: a token and the signed-in user's info,
  with `setToken`, `setUserInfo` and `logout`. The store is modelled as an
  immutable value; each action returns the next value.
 */
module AuthStore {
  import opened Common

  datatype UserInfo = UserInfo(id: int, username: string, role: string)

  datatype Session = Session(token: Option<string>, userInfo: Option<UserInfo>)

  /** The state a fresh store starts in: no token and no user. */
  const Initial: Session := Session(None, None)

  /** The session counts as signed in when its token is truthy (not null and not empty). */
  predicate HasToken(s: Session) {
    Truthy(s.token)
  }

  /** `setToken`: only the token changes. */
  function SetToken(s: Session, token: Option<string>): (r: Session)
    ensures r.token == token
    ensures r.userInfo == s.userInfo
  {
    s.(token := token)
  }

  /** `setUserInfo`: only the user info changes. */
  function SetUserInfo(s: Session, userInfo: Option<UserInfo>): (r: Session)
    ensures r.userInfo == userInfo
    ensures r.token == s.token
  {
    s.(userInfo := userInfo)
  }

  /** `logout`: both fields are cleared together, whatever the state was. */
  function Logout(s: Session): (r: Session)
    ensures r.token.None? && r.userInfo.None?
    ensures !HasToken(r)
  {
    Session(None, None)
  }

  lemma LogoutIdempotent(s: Session)
    ensures Logout(Logout(s)) == Logout(s)
    ensures Logout(s) == Initial
  {
  }

  /** The store's actions, so that a history of them can be replayed. */
  datatype Action = SetTokenAction(token: Option<string>) | SetUserInfoAction(userInfo: Option<UserInfo>) | LogoutAction

  function Apply(s: Session, a: Action): Session {
    match a
    case SetTokenAction(t) => SetToken(s, t)
    case SetUserInfoAction(u) => SetUserInfo(s, u)
    case LogoutAction => Logout(s)
  }

  function Replay(s: Session, actions: seq<Action>): Session
    decreases |actions|
  {
    if |actions| == 0 then s else Replay(Apply(s, actions[0]), actions[1..])
  }

  /** The token an action writes, if it writes one. */
  function TokenWrite(a: Action): Option<Option<string>> {
    match a
    case SetTokenAction(t) => Some(t)
    case SetUserInfoAction(_) => None
    case LogoutAction => Some(None)
  }

  /** The token written by the last token-writing action of a history, if any. */
  function LastTokenWrite(actions: seq<Action>): Option<Option<string>>
    decreases |actions|
  {
    if |actions| == 0 then None
    else
      var w := TokenWrite(actions[|actions| - 1]);
      if w.Some? then w else LastTokenWrite(actions[..|actions| - 1])
  }

  lemma {:induction false} ReplaySnoc(s: Session, actions: seq<Action>, a: Action)
    ensures Replay(s, actions + [a]) == Apply(Replay(s, actions), a)
    decreases |actions|
  {
    if |actions| > 0 {
      assert (actions + [a])[1..] == actions[1..] + [a];
      ReplaySnoc(Apply(s, actions[0]), actions[1..], a);
    }
  }

  /**
    After any history of actions the token is the one the last
    `setToken`/`logout` wrote; with no such action it is the starting token.
   */
  lemma {:induction false} ReplayToken(s: Session, actions: seq<Action>)
    ensures Replay(s, actions).token == LastTokenWrite(actions).GetOr(s.token)
    decreases |actions|
  {
    if |actions| > 0 {
      var init, last := actions[..|actions| - 1], actions[|actions| - 1];
      assert actions == init + [last];
      ReplaySnoc(s, init, last);
      ReplayToken(s, init);
    }
  }

  /** The part of the state written to durable storage: the token and the user info, nothing else. */
  datatype Persisted = Persisted(token: Option<string>, userInfo: Option<UserInfo>)

  /** `partialize`. */
  function Partialize(s: Session): (p: Persisted)
    ensures p.token == s.token && p.userInfo == s.userInfo
  {
    Persisted(s.token, s.userInfo)
  }

  /** Rehydration merges the stored fields over the initial state. */
  function Rehydrate(p: Persisted): (s: Session)
    ensures s.token == p.token && s.userInfo == p.userInfo
  {
    Initial.(token := p.token, userInfo := p.userInfo)
  }

  /** A reload restores exactly the session that was persisted. */
  lemma PersistRoundTrip(s: Session)
    ensures Rehydrate(Partialize(s)) == s
  {
  }
}

=== FILE: breadcrumb.dfy ===
/**
  The breadcrumb renderer: which items become router links and which stay
  plain text.
 */
module Breadcrumb {
  import opened Common
  import Routes

  /** `ROUTABLE_PATHS`: the root path together with every value of `ROUTES`. */
  const RoutablePaths: set<string> :=
    {"/"} + set k | k in Routes.AllKeys :: Routes.Path(k)

  lemma RoutablePathsExactly(p: string)
    ensures p in RoutablePaths <==> p == "/" || exists k :: Routes.Path(k) == p
  {
    if exists k :: Routes.Path(k) == p {
      var k :| Routes.Path(k) == p;
      Routes.AllKeysComplete(k);
    }
  }

  /** One breadcrumb item; the title is the text the item shows, if any. */
  datatype Item = Item(title: Option<string>, breadcrumbName: Option<string>, href: Option<string>)

  /** What `itemRender` returns for one item. */
  datatype Rendered = Nothing | Plain(text: string) | LinkTo(href: string, text: string)

  /** `route.title ?? route.breadcrumbName`: only a missing title falls back. */
  function TitleOf(item: Item): (t: Option<string>)
    ensures item.title.Some? ==> t == item.title
    ensures item.title.None? ==> t == item.breadcrumbName
  {
    if item.title.Some? then item.title else item.breadcrumbName
  }

  /**
    `itemRender` for one item; `isLast` says whether the item is the last
    of the rendered list.
   */
  function ItemRender(item: Item, isLast: bool): (r: Rendered)
    ensures r.Nothing? <==> !Truthy(TitleOf(item))
    ensures r.LinkTo? <==> Truthy(TitleOf(item)) && !isLast && Truthy(item.href) && item.href.value in RoutablePaths
    ensures r.LinkTo? ==> r.href == item.href.value && r.text == TitleOf(item).value
    ensures r.Plain? ==> r.text == TitleOf(item).value
  {
    var title := TitleOf(item);
    if !Truthy(title) then Nothing
    else if isLast || !Truthy(item.href) || item.href.value !in RoutablePaths then Plain(title.value)
    else LinkTo(item.href.value, title.value)
  }

  /** The whole breadcrumb: each item rendered, the last one flagged as last. */
  function RenderItems(items: seq<Item>): (rs: seq<Rendered>)
    ensures |rs| == |items|
    ensures |items| > 0 ==> !rs[|items| - 1].LinkTo?
    ensures |items| > 0 ==> rs[|items| - 1] == ItemRender(items[|items| - 1], true)
    ensures forall i :: 0 <= i < |rs| && rs[i].LinkTo? ==> rs[i].href in RoutablePaths
    ensures forall i :: 0 <= i < |rs| - 1 ==> rs[i] == ItemRender(items[i], false)
  {
    seq(|items|, i requires 0 <= i < |items| => ItemRender(items[i], i == |items| - 1))
  }

  /** Every link the breadcrumb offers leads to the root or to a route of `ROUTES`. */
  lemma LinksLeadToRoutes(items: seq<Item>, i: nat)
    requires i < |items| && RenderItems(items)[i].LinkTo?
    ensures var h := RenderItems(items)[i].href; h == "/" || exists k :: Routes.Path(k) == h
  {
    RoutablePathsExactly(RenderItems(items)[i].href);
  }
}

=== FILE: common.dfy ===
/**
  Shared vocabulary for the model of the oil/gas test-platform front end:
  optional values (JavaScript's `null` / `undefined`), truthiness of the
  values the source tests with `!x` and `x || y`, the location and
  navigation records of the router, and the few string primitives the
  source relies on (`includes`, `indexOf`, `padStart`, `String(n)`).
 */
module Common {

  /** `T | null | undefined`. */
  datatype Option<+T> = None | Some(value: T) {
    function GetOr(default: T): T {
      match this
      case Some(v) => v
      case None => default
    }
  }

  /** JavaScript truthiness of an optional string: `null`, `undefined` and `""` are falsy. */
  predicate Truthy(s: Option<string>) {
    s.Some? && s.value != ""
  }

  /** JavaScript truthiness of an optional integer: `null`, `undefined` and `0` are falsy. */
  predicate TruthyInt(n: Option<int>) {
    n.Some? && n.value != 0
  }

  /** `s || fallback` where `s` is an optional string. */
  function OrElse(s: Option<string>, fallback: string): string {
    if Truthy(s) then s.value else fallback
  }

  /** The part of a router location the app reads or hands on. */
  datatype Location = Location(pathname: string, search: string, hash: string)

  /**
    A declarative navigation: the target path, whether it replaces the
    current history entry, and the `state.from` location it carries.
   */
  datatype Navigation = Navigation(to: string, replace: bool, from: Option<Location>)

  // ---------------------------------------------------------------------
  // Substring search, as in `String.prototype.indexOf` / `includes`.
  // ---------------------------------------------------------------------

  /** `pat` occurs in `s` starting at index `i`. */
  predicate OccursAt(s: string, pat: string, i: int) {
    0 <= i && i + |pat| <= |s| && s[i..i + |pat|] == pat
  }

  /** The first occurrence of `pat` in `s` at or after index `from`. */
  function FindFrom(s: string, pat: string, from: nat): (r: Option<nat>)
    decreases |s| - from
    ensures r.Some? ==> from <= r.value && OccursAt(s, pat, r.value)
    ensures r.Some? ==> forall j :: from <= j < r.value ==> !OccursAt(s, pat, j)
    ensures r.None? ==> forall j :: from <= j ==> !OccursAt(s, pat, j)
  {
    if from + |pat| > |s| then None
    else if s[from..from + |pat|] == pat then Some(from)
    else FindFrom(s, pat, from + 1)
  }

  /** `s.indexOf(pat)`, with `None` for -1. */
  function IndexOf(s: string, pat: string): Option<nat> {
    FindFrom(s, pat, 0)
  }

  /** `s.includes(pat)`. */
  predicate Includes(s: string, pat: string) {
    IndexOf(s, pat).Some?
  }

  lemma IncludesIff(s: string, pat: string)
    ensures Includes(s, pat) <==> exists i :: OccursAt(s, pat, i)
  {
    if Includes(s, pat) {
      assert OccursAt(s, pat, IndexOf(s, pat).value);
    }
  }

  /**
    `s.length` in JavaScript: the number of UTF-16 code units, so a
    character outside the Basic Multilingual Plane counts twice.
   */
  function JsLength(s: string): (n: nat)
    ensures |s| <= n <= 2 * |s|
  {
    if |s| == 0 then 0
    else (if s[0] as int > 0xFFFF then 2 else 1) + JsLength(s[1..])
  }

  /** Characters inside the Basic Multilingual Plane take one UTF-16 code unit. */
  predicate InBmp(s: string) {
    forall i :: 0 <= i < |s| ==> s[i] as int <= 0xFFFF
  }

  /** On BMP text the UTF-16 length is the character count. */
  lemma {:induction false} JsLengthInBmp(s: string)
    requires InBmp(s)
    ensures JsLength(s) == |s|
  {
    if |s| > 0 {
      assert s[0] as int <= 0xFFFF;
      JsLengthInBmp(s[1..]);
    }
  }

  /** `Math.min` on two integers. */
  function Min(a: int, b: int): (m: int)
    ensures m <= a && m <= b && (m == a || m == b)
  {
    if a <= b then a else b
  }

  /** `xs.includes(x)` on an array, scanning from the front. */
  function SeqIncludes<T(==)>(xs: seq<T>, x: T): (b: bool)
    ensures b <==> x in xs
  {
    if |xs| == 0 then false
    else if xs[0] == x then true
    else SeqIncludes(xs[1..], x)
  }

  // ---------------------------------------------------------------------
  // Decimal rendering, as in `String(n)` / `n.toString()` for integers,
  // and `padStart`.
  // ---------------------------------------------------------------------

  predicate IsDigit(c: char) {
    '0' <= c <= '9'
  }

  predicate AllDigits(s: string) {
    forall i :: 0 <= i < |s| ==> IsDigit(s[i])
  }

  function DigitChar(d: nat): (c: char)
    requires d < 10
    ensures IsDigit(c) && c as int - '0' as int == d
  {
    (d + '0' as int) as char
  }

  /** The decimal digits of `n`, most significant first, with no leading zero. */
  function NatToString(n: nat): (s: string)
    ensures |s| > 0 && AllDigits(s)
    ensures n >= 10 ==> s[0] != '0'
  {
    if n < 10 then [DigitChar(n)]
    else NatToString(n / 10) + [DigitChar(n % 10)]
  }

  /** `String(i)` for an integer, with a leading `-` when negative. */
  function IntToString(i: int): string {
    if i < 0 then "-" + NatToString(-i) else NatToString(i)
  }

  /** The number a string of decimal digits denotes (leading zeros allowed). */
  function DigitsValue(s: string): nat
    requires AllDigits(s)
  {
    if |s| == 0 then 0
    else DigitsValue(s[..|s| - 1]) * 10 + (s[|s| - 1] as int - '0' as int)
  }

  lemma {:induction false} NatToStringRoundTrip(n: nat)
    ensures DigitsValue(NatToString(n)) == n
  {
    if n >= 10 {
      var s := NatToString(n);
      assert s[..|s| - 1] == NatToString(n / 10);
      NatToStringRoundTrip(n / 10);
    }
  }

  /** `c` repeated `k` times. */
  function Repeat(c: char, k: nat): (r: string)
    ensures |r| == k && forall i :: 0 <= i < k ==> r[i] == c
  {
    if k == 0 then "" else [c] + Repeat(c, k - 1)
  }

  /** `s.padStart(width, [c])`: left-pads with `c` up to `width`, never truncates. */
  function PadStart(s: string, width: nat, c: char): (r: string)
    ensures |s| >= width ==> r == s
    ensures |s| < width ==> |r| == width
    ensures |r| >= |s| && r[|r| - |s|..] == s
    ensures forall i :: 0 <= i < |r| - |s| ==> r[i] == c
  {
    if |s| >= width then s else Repeat(c, width - |s|) + s
  }

  lemma {:induction false} LeadingZerosKeepValue(z: nat, s: string)
    requires AllDigits(s)
    ensures AllDigits(Repeat('0', z) + s)
    ensures DigitsValue(Repeat('0', z) + s) == DigitsValue(s)
  {
    if |s| == 0 {
      ZerosValue(z);
      assert Repeat('0', z) + s == Repeat('0', z);
    } else {
      var t := Repeat('0', z) + s;
      assert t[..|t| - 1] == Repeat('0', z) + s[..|s| - 1];
      LeadingZerosKeepValue(z, s[..|s| - 1]);
    }
  }

  lemma {:induction false} ZerosValue(z: nat)
    ensures AllDigits(Repeat('0', z))
    ensures DigitsValue(Repeat('0', z)) == 0
  {
    if z > 0 {
      var t := Repeat('0', z);
      assert t[..|t| - 1] == Repeat('0', z - 1);
      ZerosValue(z - 1);
    }
  }

  /** A zero-padded decimal rendering still denotes the number it renders. */
  lemma PaddedDecimalValue(n: nat, width: nat)
    ensures AllDigits(PadStart(NatToString(n), width, '0'))
    ensures DigitsValue(PadStart(NatToString(n), width, '0')) == n
  {
    var s := NatToString(n);
    NatToStringRoundTrip(n);
    if |s| < width {
      LeadingZerosKeepValue(width - |s|, s);
    }
  }
}

=== FILE: feature_utils.dfy ===
/**
  The shared feature helpers: pagination defaults, the id check, the
  trimmed case-insensitive comparison and the date-time formatter
  (with the calendar fields given as inputs).
 */
module FeatureUtils {
  import opened Common

  // ---------------------------------------------------------------------
  // formatPaginationParams
  // ---------------------------------------------------------------------

  /** Query parameters with an optional page and size; `rest` is every other field. */
  datatype PageParams<T> = PageParams(page: Option<int>, size: Option<int>, rest: T)

  const DefaultPage: int := 1
  const DefaultSize: int := 10
  const MaxSize: int := 100

  /** `formatPaginationParams`: a falsy page becomes 1, a falsy size 10, and the size is capped at 100. */
  function FormatPagination<T>(p: PageParams<T>): (r: PageParams<T>)
    ensures r.rest == p.rest
    ensures r.page.Some? && r.size.Some?
    ensures r.page.value == (if TruthyInt(p.page) then p.page.value else DefaultPage)
    ensures r.size.value <= MaxSize
    ensures TruthyInt(p.size) && p.size.value <= MaxSize ==> r.size.value == p.size.value
    ensures TruthyInt(p.size) && p.size.value > MaxSize ==> r.size.value == MaxSize
    ensures !TruthyInt(p.size) ==> r.size.value == DefaultSize
    ensures TruthyInt(r.page) && TruthyInt(r.size)
  {
    var page := if TruthyInt(p.page) then p.page.value else DefaultPage;
    var size := Min(if TruthyInt(p.size) then p.size.value else DefaultSize, MaxSize);
    PageParams(Some(page), Some(size), p.rest)
  }

  lemma FormatPaginationIdempotent<T>(p: PageParams<T>)
    ensures FormatPagination(FormatPagination(p)) == FormatPagination(p)
  {
  }

  // ---------------------------------------------------------------------
  // isValidId
  // ---------------------------------------------------------------------

  /** An arbitrary JavaScript value, as far as a type test can tell. */
  datatype JsValue = JsNumber(x: real) | JsString(s: string) | JsBoolean(b: bool) | JsNull | JsUndefined | JsObject

  /** `isValidId`: a number greater than zero; strings such as "5" are not ids. */
  function IsValidId(v: JsValue): (ok: bool)
    ensures ok <==> v.JsNumber? && v.x > 0.0
  {
    match v
    case JsNumber(x) => x > 0.0
    case _ => false
  }

  /**
    On the integer ids the list pages carry, validity is exactly
    positivity; the same id as text is never valid.
   */
  lemma IntegerIdValidity(n: int)
    ensures IsValidId(JsNumber(n as real)) <==> n >= 1
    ensures !IsValidId(JsString(IntToString(n)))
  {
  }

  // ---------------------------------------------------------------------
  // safeStringEquals
  // ---------------------------------------------------------------------

  /** The characters `String.prototype.trim` removes (white space and line terminators). */
  predicate IsJsWhitespace(c: char) {
    var n := c as int;
    n in {0x09, 0x0A, 0x0B, 0x0C, 0x0D, 0x20, 0xA0, 0x1680, 0x2028, 0x2029, 0x202F, 0x205F, 0x3000, 0xFEFF}
    || 0x2000 <= n <= 0x200A
  }

  function TrimStart(s: string): (r: string)
    ensures |r| <= |s| && r == s[|s| - |r|..]
    ensures r == "" || !IsJsWhitespace(r[0])
    ensures forall i :: 0 <= i < |s| - |r| ==> IsJsWhitespace(s[i])
  {
    if |s| > 0 && IsJsWhitespace(s[0]) then TrimStart(s[1..]) else s
  }

  function TrimEnd(s: string): (r: string)
    ensures |r| <= |s| && r == s[..|r|]
    ensures r == "" || !IsJsWhitespace(r[|r| - 1])
    ensures forall i :: |r| <= i < |s| ==> IsJsWhitespace(s[i])
  {
    if |s| > 0 && IsJsWhitespace(s[|s| - 1]) then TrimEnd(s[..|s| - 1]) else s
  }

  /** `s.trim()`: the longest slice without white space at either end. */
  function Trim(s: string): (r: string)
    ensures r == "" || (!IsJsWhitespace(r[0]) && !IsJsWhitespace(r[|r| - 1]))
  {
    TrimEnd(TrimStart(s))
  }

  /** `toLowerCase` on ASCII letters; every other character is kept. */
  function LowerChar(c: char): char {
    if 'A' <= c <= 'Z' then (c as int + 32) as char else c
  }

  function ToLower(s: string): (r: string)
    ensures |r| == |s| && forall i :: 0 <= i < |s| ==> r[i] == LowerChar(s[i])
  {
    if |s| == 0 then "" else [LowerChar(s[0])] + ToLower(s[1..])
  }

  /** The key the comparison uses. */
  function Normalize(s: string): string {
    ToLower(Trim(s))
  }

  /** `safeStringEquals`: false if either side is missing, else equal after trimming and lower-casing. */
  function SafeStringEquals(a: Option<string>, b: Option<string>): (eq: bool)
    ensures a.None? || b.None? ==> !eq
    ensures a.Some? && b.Some? ==> (eq <==> Normalize(a.value) == Normalize(b.value))
  {
    if a.None? || b.None? then false else Normalize(a.value) == Normalize(b.value)
  }

  /** On present strings the comparison is an equivalence relation. */
  lemma SafeStringEqualsEquivalence(a: string, b: string, c: string)
    ensures SafeStringEquals(Some(a), Some(a))
    ensures SafeStringEquals(Some(a), Some(b)) == SafeStringEquals(Some(b), Some(a))
    ensures SafeStringEquals(Some(a), Some(b)) && SafeStringEquals(Some(b), Some(c)) ==> SafeStringEquals(Some(a), Some(c))
  {
  }

  /** Surrounding white space and ASCII letter case never affect the comparison. */
  lemma {:induction false} SafeStringEqualsIgnoresPadding(s: string, pre: string, post: string)
    requires forall i :: 0 <= i < |pre| ==> IsJsWhitespace(pre[i])
    requires forall i :: 0 <= i < |post| ==> IsJsWhitespace(post[i])
    ensures SafeStringEquals(Some(pre + s + post), Some(s))
    ensures SafeStringEquals(Some(ToLower(s)), Some(s))
  {
    TrimPadding(s, pre, post);
    LowerIdempotent(Trim(s));
    TrimLower(s);
  }

  lemma {:induction false} TrimStartPrefix(s: string, pad: string)
    requires forall i :: 0 <= i < |pad| ==> IsJsWhitespace(pad[i])
    ensures TrimStart(pad + s) == TrimStart(s)
    decreases |pad|
  {
    if |pad| > 0 {
      var t := pad + s;
      assert t[0] == pad[0] && IsJsWhitespace(pad[0]);
      assert TrimStart(t) == TrimStart(t[1..]);
      assert t[1..] == pad[1..] + s;
      TrimStartPrefix(s, pad[1..]);
    } else {
      assert pad + s == s;
    }
  }

  lemma {:induction false} TrimEndSuffix(s: string, pad: string)
    requires forall i :: 0 <= i < |pad| ==> IsJsWhitespace(pad[i])
    ensures TrimEnd(s + pad) == TrimEnd(s)
    decreases |pad|
  {
    if |pad| > 0 {
      var t := s + pad;
      assert t[|t| - 1] == pad[|pad| - 1] && IsJsWhitespace(pad[|pad| - 1]);
      assert TrimEnd(t) == TrimEnd(t[..|t| - 1]);
      assert t[..|t| - 1] == s + pad[..|pad| - 1];
      TrimEndSuffix(s, pad[..|pad| - 1]);
    } else {
      assert s + pad == s;
    }
  }

  /** Trimming after removing trailing white space: `TrimStart` commutes with appending white space. */
  lemma {:induction false} TrimStartAppend(s: string, pad: string)
    requires forall i :: 0 <= i < |pad| ==> IsJsWhitespace(pad[i])
    ensures TrimEnd(TrimStart(s + pad)) == TrimEnd(TrimStart(s))
    decreases |s|
  {
    if |s| > 0 && IsJsWhitespace(s[0]) {
      assert (s + pad)[1..] == s[1..] + pad;
      TrimStartAppend(s[1..], pad);
    } else if |s| == 0 {
      assert s + pad == pad;
      TrimStartAllWhitespace(pad);
    } else {
      assert TrimStart(s + pad) == s + pad;
      TrimEndSuffix(s, pad);
    }
  }

  lemma {:induction false} TrimStartAllWhitespace(pad: string)
    requires forall i :: 0 <= i < |pad| ==> IsJsWhitespace(pad[i])
    ensures TrimStart(pad) == ""
    decreases |pad|
  {
    if |pad| > 0 {
      TrimStartAllWhitespace(pad[1..]);
    }
  }

  /** White space before and after, in any amounts, is removed by trimming. */
  lemma TrimPadding(s: string, pre: string, post: string)
    requires forall i :: 0 <= i < |pre| ==> IsJsWhitespace(pre[i])
    requires forall i :: 0 <= i < |post| ==> IsJsWhitespace(post[i])
    ensures Trim(pre + s + post) == Trim(s)
  {
    assert pre + s + post == pre + (s + post);
    TrimStartPrefix(s + post, pre);
    TrimStartAppend(s, post);
  }

  lemma LowerIdempotent(s: string)
    ensures ToLower(ToLower(s)) == ToLower(s)
  {
  }

  /** Lower-casing ASCII letters never creates or removes white space, so it commutes with trimming. */
  lemma {:induction false} TrimLower(s: string)
    ensures Trim(ToLower(s)) == ToLower(Trim(s))
  {
    TrimStartLower(s);
    TrimEndLower(TrimStart(s));
  }

  lemma LowerKeepsWhitespace(s: string)
    ensures forall i :: 0 <= i < |s| ==> (IsJsWhitespace(ToLower(s)[i]) <==> IsJsWhitespace(s[i]))
  {
    forall i | 0 <= i < |s|
      ensures IsJsWhitespace(ToLower(s)[i]) <==> IsJsWhitespace(s[i])
    {
      LowerCharWhitespace(s[i]);
    }
  }

  lemma LowerCharWhitespace(c: char)
    ensures IsJsWhitespace(LowerChar(c)) <==> IsJsWhitespace(c)
  {
    if 'A' <= c <= 'Z' {
      assert 0x61 <= LowerChar(c) as int <= 0x7A;
    }
  }

  lemma {:induction false} TrimStartLower(s: string)
    ensures TrimStart(ToLower(s)) == ToLower(TrimStart(s))
    decreases |s|
  {
    if |s| > 0 {
      assert ToLower(s)[1..] == ToLower(s[1..]);
      assert ToLower(s)[0] == LowerChar(s[0]);
      LowerCharWhitespace(s[0]);
      TrimStartLower(s[1..]);
    }
  }

  lemma {:induction false} TrimEndLower(s: string)
    ensures TrimEnd(ToLower(s)) == ToLower(TrimEnd(s))
    decreases |s|
  {
    if |s| > 0 {
      var l := ToLower(s);
      assert l[..|l| - 1] == ToLower(s[..|s| - 1]);
      assert l[|l| - 1] == LowerChar(s[|s| - 1]);
      LowerCharWhitespace(s[|s| - 1]);
      TrimEndLower(s[..|s| - 1]);
    }
  }

  // ---------------------------------------------------------------------
  // formatDateTime (token substitution; the calendar fields are inputs)
  // ---------------------------------------------------------------------

  /** The calendar fields of a date as `Date`'s getters return them; `month0` counts from 0. */
  datatype DateParts = DateParts(year: int, month0: nat, day: nat, hours: nat, minutes: nat, seconds: nat, millis: nat)

  datatype DateToken = YearToken | MonthToken | DayToken | HourToken | MinuteToken | SecondToken | MilliToken

  function TokenText(t: DateToken): string {
    match t
    case YearToken => "YYYY"
    case MonthToken => "MM"
    case DayToken => "DD"
    case HourToken => "HH"
    case MinuteToken => "mm"
    case SecondToken => "ss"
    case MilliToken => "SSS"
  }

  predicate IsPrefix(p: string, f: string) {
    |p| <= |f| && f[..|p|] == p
  }

  /**
    The token `/YYYY|MM|DD|HH|mm|ss|SSS/` matches at the start of `f`. The
    tokens begin with distinct letters, so at most one can match there.
   */
  function TokenAt(f: string): (t: Option<DateToken>)
    ensures t.Some? ==> IsPrefix(TokenText(t.value), f)
    ensures t.Some? ==> forall k :: IsPrefix(TokenText(k), f) ==> k == t.value
    ensures t.None? ==> forall k :: !IsPrefix(TokenText(k), f)
  {
    TokensStartDistinct(f);
    if IsPrefix("YYYY", f) then Some(YearToken)
    else if IsPrefix("MM", f) then Some(MonthToken)
    else if IsPrefix("DD", f) then Some(DayToken)
    else if IsPrefix("HH", f) then Some(HourToken)
    else if IsPrefix("mm", f) then Some(MinuteToken)
    else if IsPrefix("ss", f) then Some(SecondToken)
    else if IsPrefix("SSS", f) then Some(MilliToken)
    else None
  }

  lemma PrefixFirstChar(p: string, f: string)
    requires |p| > 0 && IsPrefix(p, f)
    ensures f[0] == p[0]
  {
    assert f[..|p|][0] == f[0];
  }

  /** The tokens begin with distinct letters, so no two can match at the same place. */
  lemma TokensStartDistinct(f: string)
    ensures forall k1, k2 :: IsPrefix(TokenText(k1), f) && IsPrefix(TokenText(k2), f) ==> k1 == k2
  {
    forall k1, k2 | IsPrefix(TokenText(k1), f) && IsPrefix(TokenText(k2), f)
      ensures k1 == k2
    {
      PrefixFirstChar(TokenText(k1), f);
      PrefixFirstChar(TokenText(k2), f);
    }
  }

  /** No token starts with a character other than its own first letter. */
  lemma NoTokenAt(f: string)
    requires |f| > 0 && f[0] !in "YMDHmsS"
    ensures TokenAt(f).None?
  {
    forall k | IsPrefix(TokenText(k), f)
      ensures false
    {
      PrefixFirstChar(TokenText(k), f);
    }
  }

  /** `n.toString().padStart(width, '0')`. */
  function Padded(n: nat, width: nat): string {
    PadStart(NatToString(n), width, '0')
  }

  /** The text a token is replaced with: the year as is, the month one-based, the rest zero-padded. */
  function Replacement(t: DateToken, d: DateParts): string {
    match t
    case YearToken => IntToString(d.year)
    case MonthToken => Padded(d.month0 + 1, 2)
    case DayToken => Padded(d.day, 2)
    case HourToken => Padded(d.hours, 2)
    case MinuteToken => Padded(d.minutes, 2)
    case SecondToken => Padded(d.seconds, 2)
    case MilliToken => Padded(d.millis, 3)
  }

  /** The global replace, scanning left to right and resuming after each match. */
  function FormatFrom(f: string, d: DateParts): string
    decreases |f|
  {
    if |f| == 0 then ""
    else match TokenAt(f)
      case Some(t) => Replacement(t, d) + FormatFrom(f[|TokenText(t)|..], d)
      case None => [f[0]] + FormatFrom(f[1..], d)
  }

  const DefaultFormat: string := "YYYY-MM-DD HH:mm:ss"

  /**
    `formatDateTime(date, format)`; an omitted format is the default one,
    which lays the fields out as `YYYY-MM-DD HH:mm:ss`, and a format
    without tokens comes back as it is.
   */
  function FormatDateTime(d: DateParts, format: Option<string>): (r: string)
    ensures format.None? ==> r == DefaultLayout(d)
    ensures format.Some? && NoTokens(format.value) ==> r == format.value
  {
    match format
    case None => DefaultFormatLayout(d); FormatFrom(DefaultFormat, d)
    case Some(f) => if NoTokens(f) then TokenFreeFormatCopied(f, d); FormatFrom(f, d) else FormatFrom(f, d)
  }

  predicate NoTokens(f: string) {
    forall i :: 0 <= i < |f| ==> TokenAt(f[i..]).None?
  }

  /** A format without tokens is copied unchanged. */
  lemma {:induction false} TokenFreeFormatCopied(f: string, d: DateParts)
    requires NoTokens(f)
    ensures FormatFrom(f, d) == f
    decreases |f|
  {
    if |f| > 0 {
      assert f[0..] == f;
      forall i | 0 <= i < |f[1..]|
        ensures TokenAt(f[1..][i..]).None?
      {
        assert f[1..][i..] == f[i + 1..];
      }
      TokenFreeFormatCopied(f[1..], d);
    }
  }

  /** Every padded field still denotes its value, and a value below 10^width fills exactly the width. */
  lemma PaddedDenotes(n: nat, width: nat)
    ensures AllDigits(Padded(n, width)) && DigitsValue(Padded(n, width)) == n
    ensures width == 2 && n < 100 ==> |Padded(n, width)| == 2
    ensures width == 3 && n < 1000 ==> |Padded(n, width)| == 3
  {
    PaddedDecimalValue(n, width);
    NatToStringLength(n);
  }

  lemma NatToStringLength(n: nat)
    ensures n < 10 ==> |NatToString(n)| == 1
    ensures n < 100 ==> |NatToString(n)| <= 2
    ensures n < 1000 ==> |NatToString(n)| <= 3
    ensures 1000 <= n < 10000 ==> |NatToString(n)| == 4
  {
    if n >= 10 {
      assert NatToString(n) == NatToString(n / 10) + [DigitChar(n % 10)];
      if n >= 100 {
        assert NatToString(n / 10) == NatToString(n / 100) + [DigitChar((n / 10) % 10)];
        if n >= 1000 {
          assert NatToString(n / 100) == NatToString(n / 1000) + [DigitChar((n / 100) % 10)];
        }
      }
    }
  }

  /** Six fields in the default layout `Y-M-D H:m:s`. */
  function Layout(y: string, mo: string, dd: string, h: string, mi: string, se: string): string {
    y + ("-" + (mo + ("-" + (dd + (" " + (h + (":" + (mi + (":" + se)))))))))
  }

  /** The fields of a date as the default format lays them out. */
  function DefaultLayout(d: DateParts): string {
    Layout(Replacement(YearToken, d), Replacement(MonthToken, d), Replacement(DayToken, d),
           Replacement(HourToken, d), Replacement(MinuteToken, d), Replacement(SecondToken, d))
  }

  lemma FormatToken(f: string, d: DateParts, t: DateToken)
    requires IsPrefix(TokenText(t), f)
    ensures FormatFrom(f, d) == Replacement(t, d) + FormatFrom(f[|TokenText(t)|..], d)
  {
  }

  lemma FormatLiteral(f: string, d: DateParts)
    requires |f| > 0 && f[0] !in "YMDHmsS"
    ensures FormatFrom(f, d) == [f[0]] + FormatFrom(f[1..], d)
  {
    NoTokenAt(f);
  }

  /** In any format, a leading token is replaced by its field and the rest is formatted on. */
  lemma FormatDateTimeToken(d: DateParts, t: DateToken, g: string)
    ensures FormatDateTime(d, Some(TokenText(t) + g)) == Replacement(t, d) + FormatDateTime(d, Some(g))
  {
    var f := TokenText(t) + g;
    assert IsPrefix(TokenText(t), f);
    FormatToken(f, d, t);
    assert f[|TokenText(t)|..] == g;
  }

  /**
    In any format, a leading character that starts no token (a separator,
    or a letter such as a lone `M`) is copied and the rest is formatted on.
   */
  lemma FormatDateTimeLiteral(d: DateParts, c: char, g: string)
    requires TokenAt([c] + g).None?
    ensures FormatDateTime(d, Some([c] + g)) == [c] + FormatDateTime(d, Some(g))
  {
    assert ([c] + g)[1..] == g;
  }

  /** `SSS` becomes the milliseconds as exactly three digits. */
  lemma MilliReplacementDenotes(d: DateParts)
    requires d.millis < 1000
    ensures |Replacement(MilliToken, d)| == 3 && AllDigits(Replacement(MilliToken, d))
    ensures DigitsValue(Replacement(MilliToken, d)) == d.millis
  {
    PaddedDenotes(d.millis, 3);
  }

  /** A token followed by a separator character. */
  lemma FormatTokenThenSeparator(f: string, d: DateParts, t: DateToken)
    requires IsPrefix(TokenText(t), f) && |f| > |TokenText(t)| && f[|TokenText(t)|] !in "YMDHmsS"
    ensures FormatFrom(f, d) == Replacement(t, d) + ([f[|TokenText(t)|]] + FormatFrom(f[|TokenText(t)| + 1..], d))
  {
    FormatToken(f, d, t);
    var tail := f[|TokenText(t)|..];
    FormatLiteral(tail, d);
    assert tail[1..] == f[|TokenText(t)| + 1..];
  }

  /**
    The default layout, built from its tail: each step formats one token
    and the separator after it, and hands the rest to the previous step.
   */
  lemma SecondsLayout(f: string, d: DateParts)
    requires f == "ss"
    ensures FormatFrom(f, d) == Replacement(SecondToken, d)
  {
    assert IsPrefix(TokenText(SecondToken), f);
    FormatToken(f, d, SecondToken);
    assert f[2..] == [];
  }

  lemma MillisLayout(f: string, d: DateParts)
    requires f == "SSS"
    ensures FormatFrom(f, d) == Replacement(MilliToken, d)
  {
    assert IsPrefix(TokenText(MilliToken), f);
    FormatToken(f, d, MilliToken);
    assert f[3..] == [];
  }

  /** A custom format: `ss.SSS` gives the seconds, a dot and the milliseconds. */
  lemma SecondsAndMillisFormat(f: string, d: DateParts)
    requires f == "ss.SSS"
    ensures FormatDateTime(d, Some(f)) == Replacement(SecondToken, d) + ("." + Replacement(MilliToken, d))
  {
    assert IsPrefix(TokenText(SecondToken), f);
    FormatTokenThenSeparator(f, d, SecondToken);
    MillisLayout(f[3..], d);
  }

  lemma MinutesLayout(f: string, d: DateParts)
    requires f == "mm:ss"
    ensures FormatFrom(f, d) == Replacement(MinuteToken, d) + (":" + Replacement(SecondToken, d))
  {
    assert IsPrefix(TokenText(MinuteToken), f);
    FormatTokenThenSeparator(f, d, MinuteToken);
    SecondsLayout(f[3..], d);
  }

  lemma HoursLayout(f: string, d: DateParts)
    requires f == "HH:mm:ss"
    ensures FormatFrom(f, d) == Replacement(HourToken, d) + (":" + (Replacement(MinuteToken, d) + (":" + Replacement(SecondToken, d))))
  {
    assert IsPrefix(TokenText(HourToken), f);
    FormatTokenThenSeparator(f, d, HourToken);
    MinutesLayout(f[3..], d);
  }

  lemma DaysLayout(f: string, d: DateParts)
    requires f == "DD HH:mm:ss"
    ensures FormatFrom(f, d) == Replacement(DayToken, d) + (" " + (Replacement(HourToken, d) + (":" + (Replacement(MinuteToken, d) + (":" + Replacement(SecondToken, d))))))
  {
    assert IsPrefix(TokenText(DayToken), f);
    FormatTokenThenSeparator(f, d, DayToken);
    HoursLayout(f[3..], d);
  }

  lemma MonthsLayout(f: string, d: DateParts)
    requires f == "MM-DD HH:mm:ss"
    ensures FormatFrom(f, d) == Replacement(MonthToken, d) + ("-" + (Replacement(DayToken, d) + (" " + (Replacement(HourToken, d) + (":" + (Replacement(MinuteToken, d) + (":" + Replacement(SecondToken, d))))))))
  {
    assert IsPrefix(TokenText(MonthToken), f);
    FormatTokenThenSeparator(f, d, MonthToken);
    DaysLayout(f[3..], d);
  }

  lemma YearsLayout(f: string, d: DateParts)
    requires f == "YYYY-MM-DD HH:mm:ss"
    ensures FormatFrom(f, d) == Replacement(YearToken, d) + ("-" + (Replacement(MonthToken, d) + ("-" + (Replacement(DayToken, d) + (" " + (Replacement(HourToken, d) + (":" + (Replacement(MinuteToken, d) + (":" + Replacement(SecondToken, d))))))))))
  {
    assert IsPrefix(TokenText(YearToken), f);
    FormatTokenThenSeparator(f, d, YearToken);
    MonthsLayout(f[5..], d);
  }

  /** The default format yields `<year>-<MM>-<DD> <HH>:<mm>:<ss>`. */
  lemma DefaultFormatLayout(d: DateParts)
    ensures FormatFrom(DefaultFormat, d) == DefaultLayout(d)
  {
    YearsLayout(DefaultFormat, d);
  }

  /** Calendar fields in the ranges `Date` produces, with a four-digit year. */
  predicate StandardDate(d: DateParts) {
    1000 <= d.year <= 9999 && d.month0 < 12 && d.day < 100 && d.hours < 24 && d.minutes < 60 && d.seconds < 60
  }

  /** A run of decimal digits read as a number. */
  function DigitField(t: string): Option<nat> {
    if AllDigits(t) then Some(DigitsValue(t)) else None
  }

  /** Reads the fields back from a string in the default layout. */
  function ParseDefault(s: string): Option<DateParts> {
    if |s| != 19 then None
    else
      var y, mo, dd := DigitField(s[0..4]), DigitField(s[5..7]), DigitField(s[8..10]);
      var h, mi, se := DigitField(s[11..13]), DigitField(s[14..16]), DigitField(s[17..19]);
      if y.Some? && mo.Some? && dd.Some? && h.Some? && mi.Some? && se.Some? && mo.value >= 1
      then Some(DateParts(y.value, mo.value - 1, dd.value, h.value, mi.value, se.value, 0))
      else None
  }

  /** A field followed by a separator and the rest: the field is the prefix, the rest the suffix. */
  lemma FieldThenRest(field: string, sep: char, rest: string)
    ensures var s := field + ([sep] + rest);
      s[..|field|] == field && s[|field| + 1..] == rest && |s| == |field| + 1 + |rest|
  {
    var s := field + ([sep] + rest);
    assert s[..|field|] == field;
    assert s[|field| + 1..] == rest;
  }

  /** Slicing inside a suffix is slicing the whole at shifted positions. */
  lemma SliceOfSuffix(s: string, k: nat, t: string, i: nat, j: nat)
    requires k <= |s| && s[k..] == t && i <= j <= |t|
    ensures s[k + i..k + j] == t[i..j] && s[k + i..] == t[i..]
  {
    assert s[k..][i..j] == s[k + i..k + j];
    assert s[k..][i..] == s[k + i..];
  }

  /** Where each field sits in the default layout. */
  lemma LayoutPositions(y: string, mo: string, dd: string, h: string, mi: string, se: string)
    requires |y| == 4 && |mo| == 2 && |dd| == 2 && |h| == 2 && |mi| == 2 && |se| == 2
    ensures var s := Layout(y, mo, dd, h, mi, se);
      |s| == 19 && s[0..4] == y && s[5..7] == mo && s[8..10] == dd
      && s[11..13] == h && s[14..16] == mi && s[17..19] == se
  {
    var t5 := mi + ([':'] + se);
    var t4 := h + ([':'] + t5);
    var t3 := dd + ([' '] + t4);
    var t2 := mo + (['-'] + t3);
    var s := y + (['-'] + t2);
    assert s == Layout(y, mo, dd, h, mi, se);
    FieldThenRest(mi, ':', se);
    FieldThenRest(h, ':', t5);
    FieldThenRest(dd, ' ', t4);
    FieldThenRest(mo, '-', t3);
    FieldThenRest(y, '-', t2);
    assert s[0..4] == y;
    SliceOfSuffix(s, 5, t2, 0, 2);
    SliceOfSuffix(s, 5, t2, 3, 3);
    SliceOfSuffix(s, 8, t3, 0, 2);
    SliceOfSuffix(s, 8, t3, 3, 3);
    SliceOfSuffix(s, 11, t4, 0, 2);
    SliceOfSuffix(s, 11, t4, 3, 3);
    SliceOfSuffix(s, 14, t5, 0, 2);
    SliceOfSuffix(s, 14, t5, 3, 3);
    assert s[17..] == se;
  }

  /** Parsing reads six digit fields back from their places. */
  lemma ParseFields(s: string, y: nat, mo: nat, dd: nat, h: nat, mi: nat, se: nat)
    requires |s| == 19 && mo >= 1
    requires DigitField(s[0..4]) == Some(y) && DigitField(s[5..7]) == Some(mo) && DigitField(s[8..10]) == Some(dd)
    requires DigitField(s[11..13]) == Some(h) && DigitField(s[14..16]) == Some(mi) && DigitField(s[17..19]) == Some(se)
    ensures ParseDefault(s) == Some(DateParts(y, mo - 1, dd, h, mi, se, 0))
  {
  }

  /** A field rendered as digits reads back as its value. */
  lemma FieldReads(t: string, n: nat)
    requires AllDigits(t) && DigitsValue(t) == n
    ensures DigitField(t) == Some(n)
  {
  }

  /** The default format loses nothing but the milliseconds: parsing its output gives the fields back. */
  lemma DefaultFormatRoundTrip(d: DateParts)
    requires StandardDate(d)
    ensures ParseDefault(FormatDateTime(d, None)) == Some(d.(millis := 0))
  {
    DefaultFormatLayout(d);
    NatToStringLength(d.year);
    NatToStringRoundTrip(d.year);
    PaddedDenotes(d.month0 + 1, 2);
    PaddedDenotes(d.day, 2);
    PaddedDenotes(d.hours, 2);
    PaddedDenotes(d.minutes, 2);
    PaddedDenotes(d.seconds, 2);
    var y, mo, dd := Replacement(YearToken, d), Replacement(MonthToken, d), Replacement(DayToken, d);
    var h, mi, se := Replacement(HourToken, d), Replacement(MinuteToken, d), Replacement(SecondToken, d);
    LayoutPositions(y, mo, dd, h, mi, se);
    FieldReads(y, d.year);
    FieldReads(mo, d.month0 + 1);
    FieldReads(dd, d.day);
    FieldReads(h, d.hours);
    FieldReads(mi, d.minutes);
    FieldReads(se, d.seconds);
    ParseFields(Layout(y, mo, dd, h, mi, se), d.year, d.month0 + 1, d.day, d.hours, d.minutes, d.seconds);
  }
}

=== FILE: init_admin.dfy ===
/**
  The first-deployment page that creates the administrator account: its
  field validators, the checks `onFinish` repeats before calling the
  server, how it classifies the server's answer, and the way back to login.
 */
module InitAdmin {
  import opened Common

  /** The form's values; the username field is fixed to "admin" and disabled. */
  datatype InitForm = InitForm(username: string, password: string, confirmPassword: string)

  const AdminUsername: string := "admin"
  const InitialForm: InitForm := InitForm(AdminUsername, "", "")

  datatype FormField = UsernameField | PasswordField | ConfirmField

  /** Typing into a field: the disabled, read-only username input ignores every edit. */
  function Edit(form: InitForm, field: FormField, value: string): (f: InitForm)
    ensures f.username == form.username
  {
    match field
    case UsernameField => form
    case PasswordField => form.(password := value)
    case ConfirmField => form.(confirmPassword := value)
  }

  function EditAll(form: InitForm, edits: seq<(FormField, string)>): InitForm
    decreases |edits|
  {
    if |edits| == 0 then form else EditAll(Edit(form, edits[0].0, edits[0].1), edits[1..])
  }

  /** Whatever the user types, the username stays "admin". */
  lemma {:induction false} UsernameStaysAdmin(edits: seq<(FormField, string)>)
    ensures EditAll(InitialForm, edits).username == AdminUsername
  {
    EditsKeepUsername(InitialForm, edits);
  }

  lemma {:induction false} EditsKeepUsername(form: InitForm, edits: seq<(FormField, string)>)
    ensures EditAll(form, edits).username == form.username
    decreases |edits|
  {
    if |edits| > 0 {
      EditsKeepUsername(Edit(form, edits[0].0, edits[0].1), edits[1..]);
    }
  }

  datatype FieldCheck = Valid | Invalid(message: string)

  const EnterPasswordText: string := "请输入密码"
  const TooShortText: string := "密码至少6位"
  const TooLongText: string := "密码最多30位"
  const ConfirmPasswordText: string := "请确认密码"
  const MismatchText: string := "两次输入的密码不一致"
  const LengthRangeText: string := "密码长度必须在6-30位之间"

  /** `validatePassword`: empty, too short and too long are told apart. */
  function ValidatePassword(value: string): (r: FieldCheck)
    ensures r.Valid? <==> 6 <= JsLength(value) <= 30
    ensures value == "" ==> r == Invalid(EnterPasswordText)
    ensures value != "" && JsLength(value) < 6 ==> r == Invalid(TooShortText)
    ensures JsLength(value) > 30 ==> r == Invalid(TooLongText)
  {
    if value == "" then Invalid(EnterPasswordText)
    else if JsLength(value) < 6 then Invalid(TooShortText)
    else if JsLength(value) > 30 then Invalid(TooLongText)
    else Valid
  }

  /** `validateConfirmPassword`: empty is refused first, then anything unequal to the password field. */
  function ValidateConfirmPassword(value: string, password: string): (r: FieldCheck)
    ensures r.Valid? <==> value != "" && value == password
    ensures value == "" ==> r == Invalid(ConfirmPasswordText)
    ensures value != "" && value != password ==> r == Invalid(MismatchText)
  {
    if value == "" then Invalid(ConfirmPasswordText)
    else if value != password then Invalid(MismatchText)
    else Valid
  }

  /** The checks `onFinish` makes before any request: mismatch first, then length. */
  function PreCheck(values: InitForm): (r: FieldCheck)
    ensures values.password != values.confirmPassword ==> r == Invalid(MismatchText)
    ensures values.password == values.confirmPassword && !(6 <= JsLength(values.password) <= 30) ==>
      r == Invalid(LengthRangeText)
    ensures r.Valid? <==> values.password == values.confirmPassword && 6 <= JsLength(values.password) <= 30
  {
    if values.password != values.confirmPassword then Invalid(MismatchText)
    else if JsLength(values.password) < 6 || JsLength(values.password) > 30 then Invalid(LengthRangeText)
    else Valid
  }

  /** The submit-time checks accept exactly what the two field validators accept. */
  lemma PreCheckMatchesValidators(values: InitForm)
    ensures PreCheck(values).Valid? <==>
      ValidatePassword(values.password).Valid? && ValidateConfirmPassword(values.confirmPassword, values.password).Valid?
  {
  }

  /** The body of the init request: the passwords only, the username is implied. */
  datatype InitRequest = InitRequest(password: string, confirmPassword: string)

  /** The created user the server returns. */
  datatype UserResponse = UserResponse(id: int, username: string, role: string)

  /** A failed request as the page's `catch` sees it: `response.data.message` and `response.data.code`. */
  datatype InitFailure = InitFailure(dataMessage: Option<string>, dataCode: Option<int>)

  datatype InitReply = Created(user: UserResponse) | Failed(failure: InitFailure)

  /** The user shown on the success panel. */
  datatype CreatedUser = CreatedUser(username: string, role: string)

  const CreatedText: string := "管理员账户创建成功"
  const CreateFailedDefault: string := "创建失败，请稍后重试"
  const AdminExistsText: string := "系统已存在管理员，无法重复创建"
  const ExistsMarker: string := "已存在"

  /** What a submission leads to. */
  datatype InitOutcome =
    | LocallyRejected(message: string)
      /** the request was sent and the success panel is shown; the status is probed again */
    | Succeeded(request: InitRequest, user: CreatedUser, toast: string, reprobe: bool)
      /** the request was sent and refused; a duplicate admin also returns to login */
    | ServerRefused(request: InitRequest, message: string, redirect: Option<Navigation>)

  /** The request `onFinish` sends for the form's values. */
  function RequestOf(values: InitForm): (q: InitRequest)
    ensures q.password == values.password && q.confirmPassword == values.confirmPassword
  {
    InitRequest(values.password, values.confirmPassword)
  }

  /** `response?.data?.message || '创建失败，请稍后重试'`. */
  function FailureText(f: InitFailure): string {
    OrElse(f.dataMessage, CreateFailedDefault)
  }

  predicate IsDuplicateAdmin(f: InitFailure) {
    f.dataCode == Some(400) && Includes(FailureText(f), ExistsMarker)
  }

  /**
    `onFinish`. `reply` is what the server would answer; it is consulted
    only when the local checks pass.
   */
  function OnFinish(values: InitForm, reply: InitReply): (r: InitOutcome)
    ensures r.LocallyRejected? <==> PreCheck(values).Invalid?
    ensures r.LocallyRejected? ==> r.message == PreCheck(values).message
    ensures !r.LocallyRejected? ==> r.request == RequestOf(values)
    ensures PreCheck(values).Valid? && reply.Created? ==>
      r == Succeeded(RequestOf(values), CreatedUser(reply.user.username, reply.user.role), CreatedText, true)
    ensures PreCheck(values).Valid? && reply.Failed? && IsDuplicateAdmin(reply.failure) ==>
      r == ServerRefused(RequestOf(values), AdminExistsText, Some(Navigation("/login", true, None)))
    ensures PreCheck(values).Valid? && reply.Failed? && !IsDuplicateAdmin(reply.failure) ==>
      r == ServerRefused(RequestOf(values), FailureText(reply.failure), None)
  {
    match PreCheck(values)
    case Invalid(m) => LocallyRejected(m)
    case Valid =>
      var request := RequestOf(values);
      match reply
      case Created(u) => Succeeded(request, CreatedUser(u.username, u.role), CreatedText, true)
      case Failed(f) =>
        if IsDuplicateAdmin(f) then ServerRefused(request, AdminExistsText, Some(Navigation("/login", true, None)))
        else ServerRefused(request, FailureText(f), None)
  }

  /** The username typed (or not) into the form never reaches the server nor changes the outcome. */
  lemma OutcomeIgnoresUsername(values: InitForm, other: string, reply: InitReply)
    ensures OnFinish(values.(username := other), reply) == OnFinish(values, reply)
  {
  }

  /** A password that fails the local checks never causes a request, whatever the server would say. */
  lemma LocalRejectionSendsNothing(values: InitForm, r1: InitReply, r2: InitReply)
    requires PreCheck(values).Invalid?
    ensures OnFinish(values, r1) == OnFinish(values, r2)
    ensures OnFinish(values, r1).LocallyRejected?
  {
  }

  /** Whether the status refresh before leaving succeeded or threw. */
  datatype RefreshResult = RefreshOk | RefreshThrew

  /** `handleGoLogin`: the refresh's failure is swallowed and the page always goes to `/login`. */
  function GoLogin(refresh: RefreshResult): (nav: Navigation)
    ensures nav.to == "/login" && nav.replace && nav.from.None?
  {
    Navigation("/login", true, None)
  }

  /** Whether the refresh threw makes no difference to where the page goes. */
  lemma GoLoginIgnoresRefresh()
    ensures GoLogin(RefreshOk) == GoLogin(RefreshThrew)
  {
  }
}

=== FILE: list_pages.dfy ===
/**
  The logic of the two list pages: the test-station table and the
  oil-sample table. Both translate the table's sort state into the
  back end's `sortField` / `sortOrder`, coerce their numeric search
  filters, map a page reply (or a failed fetch) into the table's result,
  and check a number for uniqueness against the server before a form is
  submitted. The oil-sample page also summarises each sample's parameters
  and labels its enabled state.
 */
module ListPages {
  import opened Common

  // ---------------------------------------------------------------------
  // Sort translation (identical on both pages)
  // ---------------------------------------------------------------------

  datatype SortOrder = Asc | Desc

  /**
    The table's sort state, as the entries of the sort object in key
    order; each value is the table's order name (`"ascend"`,
    `"descend"`), or `None` for `null`.
   */
  type SortState = seq<(string, Option<string>)>

  datatype SortParams = SortParams(sortField: Option<string>, sortOrder: Option<SortOrder>)

  /** The back-end order for one table order name; anything unknown gives none. */
  function OrderOf(order: Option<string>): (r: Option<SortOrder>)
    ensures r == Some(Asc) <==> order == Some("ascend")
    ensures r == Some(Desc) <==> order == Some("descend")
  {
    if order == Some("ascend") then Some(Asc)
    else if order == Some("descend") then Some(Desc)
    else None
  }

  /** The sort translation of both list pages: only the first sort key counts. */
  function TranslateSort(sort: SortState): (r: SortParams)
    ensures |sort| == 0 <==> r.sortField.None?
    ensures |sort| == 0 ==> r.sortOrder.None?
    ensures |sort| > 0 ==> r.sortField == Some(sort[0].0)
  {
    if |sort| == 0 then SortParams(None, None)
    else SortParams(Some(sort[0].0), OrderOf(sort[0].1))
  }

  /** The order sent is determined by the first key's order name alone, both ways. */
  lemma SortOrderFollowsFirstKey(sort: SortState)
    requires |sort| > 0
    ensures TranslateSort(sort).sortOrder == Some(Asc) <==> sort[0].1 == Some("ascend")
    ensures TranslateSort(sort).sortOrder == Some(Desc) <==> sort[0].1 == Some("descend")
    ensures TranslateSort(sort).sortOrder.None? <==> sort[0].1 !in {Some("ascend"), Some("descend")}
  {
  }

  /** Keys after the first never influence the request. */
  lemma SortIgnoresLaterKeys(sort: SortState, more: SortState)
    requires |sort| > 0
    ensures TranslateSort(sort + more) == TranslateSort(sort[..1])
  {
    assert (sort + more)[0] == sort[0] == sort[..1][0];
  }

  // ---------------------------------------------------------------------
  // Page result mapping (identical on both pages)
  // ---------------------------------------------------------------------

  datatype Page<T> = Page(content: seq<T>, total: int)

  datatype TableResult<T> = TableResult(data: seq<T>, success: bool, total: int)

  /**
    The `request` callback's result: a page reply (`Some`) becomes the
    rows and total with `success`; a failed fetch (`None`) becomes an
    empty, unsuccessful result.
   */
  function ToTableResult<T>(reply: Option<Page<T>>): (r: TableResult<T>)
    ensures r.success <==> reply.Some?
    ensures reply.Some? ==> r.data == reply.value.content && r.total == reply.value.total
    ensures reply.None? ==> r.data == [] && r.total == 0
  {
    match reply
    case Some(p) => TableResult(p.content, true, p.total)
    case None => TableResult([], false, 0)
  }

  /** A successful mapping loses nothing: the page can be read back from it. */
  lemma TableResultRoundTrip<T>(p: Page<T>)
    ensures var r := ToTableResult(Some(p)); Page(r.data, r.total) == p
  {
  }

  // ---------------------------------------------------------------------
  // Numeric search filters
  // ---------------------------------------------------------------------

  /** `x ? Number(x) : undefined` for a numeric search field. */
  function TruthyNumberFilter(x: Option<int>): (r: Option<int>)
    ensures r.Some? <==> x.Some? && x.value != 0
    ensures r.Some? ==> r == x
  {
    if TruthyInt(x) then x else None
  }

  /** The station-number filter: station numbers start at 1, so dropping 0 loses no station. */
  function StationNoFilter(x: Option<int>): (r: Option<int>)
    ensures forall n :: n >= 1 ==> (x == Some(n) <==> r == Some(n))
  {
    TruthyNumberFilter(x)
  }

  /**
    The cylinder-number filter as the oil-sample page writes it: the
    same truthiness coercion, although cylinder numbers start at 0.
   */
  function CylinderNoFilterAsWritten(x: Option<int>): (r: Option<int>)
    ensures r.Some? ==> r == x
  {
    TruthyNumberFilter(x)
  }

  /** The smallest cylinder number the oil-sample forms accept. */
  const MinCylinderNo: int := 0

  /** Searching for cylinder 0, a number the form accepts, sends no filter at all. */
  lemma CylinderZeroFilterDropped()
    ensures MinCylinderNo >= 0
    ensures CylinderNoFilterAsWritten(Some(MinCylinderNo)) == None
  {
  }

  /** The cylinder-number filter as intended: any number entered is sent. */
  function CylinderNoFilter(x: Option<int>): (r: Option<int>)
    ensures forall n :: n >= MinCylinderNo ==> (x == Some(n) <==> r == Some(n))
    ensures x.None? ==> r.None?
  {
    x
  }

  /** The two readings agree on every cylinder number except 0. */
  lemma CylinderFiltersDifferOnlyAtZero(x: Option<int>)
    ensures CylinderNoFilterAsWritten(x) != CylinderNoFilter(x) <==> x == Some(0)
  {
  }

  /** The page query of the test-station table, as far as the model sees it. */
  datatype StationQuery = StationQuery(page: Option<int>, size: Option<int>, stationNo: Option<int>, sort: SortParams)

  function StationQueryOf(current: Option<int>, pageSize: Option<int>, stationNo: Option<int>, sort: SortState): (q: StationQuery)
    ensures q.page == current && q.size == pageSize
    ensures q.stationNo == StationNoFilter(stationNo)
    ensures q.sort == TranslateSort(sort)
  {
    StationQuery(current, pageSize, StationNoFilter(stationNo), TranslateSort(sort))
  }

  /** The page query of the oil-sample table. */
  datatype SampleQuery = SampleQuery(page: Option<int>, size: Option<int>, sampleNo: Option<string>, cylinderNo: Option<int>, sort: SortParams)

  /** The oil-sample query as the page builds it: cylinder 0 is sent as no filter. */
  function SampleQueryOf(current: Option<int>, pageSize: Option<int>, sampleNo: Option<string>, cylinderNo: Option<int>, sort: SortState): (q: SampleQuery)
    ensures q.page == current && q.size == pageSize && q.sampleNo == sampleNo
    ensures q.cylinderNo.Some? <==> cylinderNo.Some? && cylinderNo.value != 0
    ensures q.cylinderNo.Some? ==> q.cylinderNo == cylinderNo
    ensures q.sort == TranslateSort(sort)
  {
    SampleQuery(current, pageSize, sampleNo, CylinderNoFilterAsWritten(cylinderNo), TranslateSort(sort))
  }

  /** The oil-sample query with the intended cylinder filter: every entered cylinder number is sent. */
  function SampleQueryOfIntended(current: Option<int>, pageSize: Option<int>, sampleNo: Option<string>, cylinderNo: Option<int>, sort: SortState): (q: SampleQuery)
    ensures q.page == current && q.size == pageSize && q.sampleNo == sampleNo
    ensures forall n :: n >= MinCylinderNo ==> (cylinderNo == Some(n) <==> q.cylinderNo == Some(n))
    ensures cylinderNo.None? ==> q.cylinderNo.None?
    ensures q.sort == TranslateSort(sort)
  {
    SampleQuery(current, pageSize, sampleNo, CylinderNoFilter(cylinderNo), TranslateSort(sort))
  }

  /** The query the page sends and the intended one differ exactly on a search for cylinder 0. */
  lemma SampleQueriesDifferOnlyAtZero(current: Option<int>, pageSize: Option<int>, sampleNo: Option<string>, cylinderNo: Option<int>, sort: SortState)
    ensures SampleQueryOf(current, pageSize, sampleNo, cylinderNo, sort) != SampleQueryOfIntended(current, pageSize, sampleNo, cylinderNo, sort)
      <==> cylinderNo == Some(0)
    ensures cylinderNo == Some(0) ==> SampleQueryOf(current, pageSize, sampleNo, cylinderNo, sort).cylinderNo.None?
  {
    CylinderFiltersDifferOnlyAtZero(cylinderNo);
  }

  /** Both tables send the same sort for the same table state. */
  lemma TablesShareSortTranslation(sort: SortState, current: Option<int>, size: Option<int>,
                                   stationNo: Option<int>, sampleNo: Option<string>, cylinderNo: Option<int>)
    ensures StationQueryOf(current, size, stationNo, sort).sort == SampleQueryOf(current, size, sampleNo, cylinderNo, sort).sort
  {
  }

  // ---------------------------------------------------------------------
  // Uniqueness validators
  // ---------------------------------------------------------------------

  /** What the uniqueness endpoint answers: `data` true for unique, or the call fails. */
  datatype ServerReply = Replied(unique: bool) | CallFailed

  /** A validator's verdict: accepted, rejected with a message, or the call's own error passed on. */
  datatype Verdict = Accept | Reject(message: string) | PassOnError

  /** A validator run: the value sent to the server, if any, and the verdict. */
  datatype Check<T> = Check(sent: Option<T>, verdict: Verdict)

  const StationNoTaken: string := "工位编号已存在"
  const SampleNoTaken: string := "油样编号已存在"

  /** The verdict on the server's reply about a value that was sent. */
  function Judge(reply: ServerReply, taken: string): (v: Verdict)
    ensures v == Accept <==> reply == Replied(true)
    ensures v == PassOnError <==> reply == CallFailed
    ensures v.Reject? ==> v.message == taken
  {
    match reply
    case Replied(unique) => if unique then Accept else Reject(taken)
    case CallFailed => PassOnError
  }

  /**
    The station-number validator built for a current number: a falsy value
    passes, a value equal to a truthy current number passes, and anything
    else is sent to the server; `reply` is what the server would answer.
   */
  function StationNoValidator(currentStationNo: Option<int>, value: Option<int>, reply: ServerReply): (c: Check<int>)
    ensures !TruthyInt(value) ==> c == Check(None, Accept)
    ensures TruthyInt(value) && TruthyInt(currentStationNo) && value == currentStationNo ==> c == Check(None, Accept)
    ensures c.sent.Some? ==> c.sent == value
  {
    if !TruthyInt(value) then Check(None, Accept)
    else if TruthyInt(currentStationNo) && value == currentStationNo then Check(None, Accept)
    else Check(value, Judge(reply, StationNoTaken))
  }

  /** Otherwise the server decides: the value is sent, and it passes iff the server calls it unique. */
  lemma StationNoServerDecides(currentStationNo: Option<int>, value: Option<int>, reply: ServerReply)
    requires TruthyInt(value) && !(TruthyInt(currentStationNo) && value == currentStationNo)
    ensures StationNoValidator(currentStationNo, value, reply).sent == value
    ensures StationNoValidator(currentStationNo, value, reply).verdict == Accept <==> reply == Replied(true)
  {
  }

  /** A station row as the edit form knows it. */
  datatype StationRow = StationRow(stationNo: int)

  /** The create form's validator: no current number. */
  function CreateStationNoCheck(value: Option<int>, reply: ServerReply): (c: Check<int>)
    ensures c.sent.Some? <==> TruthyInt(value)
  {
    StationNoValidator(None, value, reply)
  }

  /** The edit form's validator: the current row's number, when a row is being edited. */
  function EditStationNoCheck(currentRow: Option<StationRow>, value: Option<int>, reply: ServerReply): (c: Check<int>)
    ensures currentRow.Some? && currentRow.value.stationNo != 0 && value == Some(currentRow.value.stationNo)
      ==> c == Check(None, Accept)
  {
    var current := if currentRow.Some? then Some(currentRow.value.stationNo) else None;
    StationNoValidator(current, value, reply)
  }

  /** Editing differs from creating only by letting the unchanged number through. */
  lemma EditCheckRelaxesCreate(currentRow: Option<StationRow>, value: Option<int>, reply: ServerReply)
    ensures EditStationNoCheck(currentRow, value, reply) != CreateStationNoCheck(value, reply)
      ==> currentRow.Some? && value == Some(currentRow.value.stationNo) && currentRow.value.stationNo != 0
          && EditStationNoCheck(currentRow, value, reply) == Check(None, Accept)
    ensures EditStationNoCheck(None, value, reply) == CreateStationNoCheck(value, reply)
  {
  }

  /** An oil-sample row as the edit form knows it. */
  datatype SampleRow = SampleRow(sampleNo: string)

  /** The create form's sample-number validator: an empty value passes, anything else goes to the server. */
  function CreateSampleNoCheck(value: Option<string>, reply: ServerReply): (c: Check<string>)
    ensures !Truthy(value) ==> c == Check(None, Accept)
    ensures Truthy(value) ==> c.sent == value && (c.verdict == Accept <==> reply == Replied(true))
  {
    if !Truthy(value) then Check(None, Accept)
    else Check(value, Judge(reply, SampleNoTaken))
  }

  /** The edit form's sample-number validator: the current row's number also passes unchecked. */
  function EditSampleNoCheck(currentRow: Option<SampleRow>, value: Option<string>, reply: ServerReply): (c: Check<string>)
    ensures currentRow.Some? && value == Some(currentRow.value.sampleNo) ==> c.sent.None? && c.verdict == Accept
  {
    if !Truthy(value) then Check(None, Accept)
    else if currentRow.Some? && value == Some(currentRow.value.sampleNo) then Check(None, Accept)
    else Check(value, Judge(reply, SampleNoTaken))
  }

  /** A changed sample number is judged exactly as on creation. */
  lemma EditSampleAgreesWithCreate(currentRow: Option<SampleRow>, value: Option<string>, reply: ServerReply)
    requires currentRow.None? || value != Some(currentRow.value.sampleNo)
    ensures EditSampleNoCheck(currentRow, value, reply) == CreateSampleNoCheck(value, reply)
  {
  }

  // ---------------------------------------------------------------------
  // Oil-sample parameter summary and enabled label
  // ---------------------------------------------------------------------

  /** How many parameters the cell shows as tags. */
  const ShownParameters: nat := 3

  /**
    The parameters cell: `-` when there are none; otherwise the first
    tags, and, when some are hidden, a `+restCount` tag with a tooltip
    listing every parameter.
   */
  datatype Summary<P> =
    | Dash
    | Tags(shown: seq<P>)
    | TagsWithMore(shown: seq<P>, restCount: nat, tooltip: seq<P>)

  function Summarize<P>(parameters: Option<seq<P>>): (r: Summary<P>)
    ensures r.Dash? <==> parameters.None? || |parameters.value| == 0
    ensures !r.Dash? ==> r.shown == parameters.value[..Min(ShownParameters, |parameters.value|)]
    ensures r.TagsWithMore? <==> !r.Dash? && |parameters.value| > ShownParameters
    ensures r.TagsWithMore? ==> |r.shown| + r.restCount == |parameters.value| && r.restCount > 0
    ensures r.TagsWithMore? ==> r.tooltip == parameters.value
  {
    if parameters.None? || |parameters.value| == 0 then Dash
    else
      var ps := parameters.value;
      var shown := ps[..Min(ShownParameters, |ps|)];
      var restCount := |ps| - |shown|;
      if restCount <= 0 then Tags(shown) else TagsWithMore(shown, restCount, ps)
  }

  /** The number on the `+` tag; zero when there is none. */
  function HiddenCount<P>(s: Summary<P>): nat {
    match s
    case TagsWithMore(_, restCount, _) => restCount
    case _ => 0
  }

  /** Nothing is lost: the shown tags followed by the hidden ones are the parameters. */
  lemma SummaryAccountsForAll<P>(ps: seq<P>)
    requires |ps| > 0
    ensures var s := Summarize(Some(ps));
      |s.shown| + HiddenCount(s) == |ps| && s.shown + ps[|s.shown|..] == ps
  {
  }

  /** The `+restCount` tag appears exactly when more than three parameters exist. */
  lemma MoreTagIffHidden<P>(ps: seq<P>)
    ensures HiddenCount(Summarize(Some(ps))) > 0 <==> |ps| > ShownParameters
  {
  }

  datatype TagColor = Success | Default

  /** The enabled cell: a coloured tag from the options, or plain text when no option matches. */
  datatype EnabledCell = Tagged(color: TagColor, caption: string) | PlainText(text: string)

  const EnabledLabel: string := "启用"
  const DisabledLabel: string := "禁用"

  /** The enabled options: `true` is a success-coloured 启用, `false` a default-coloured 禁用. */
  const EnabledOptions: seq<(bool, TagColor, string)> := [(true, Success, EnabledLabel), (false, Default, DisabledLabel)]

  /** The first option whose value is `enabled`, as `Array.prototype.find`. */
  function FindOption(options: seq<(bool, TagColor, string)>, enabled: Option<bool>): (r: Option<(bool, TagColor, string)>)
    ensures r.Some? ==> r.value in options && enabled == Some(r.value.0)
    ensures r.None? ==> forall o :: o in options ==> enabled != Some(o.0)
  {
    if |options| == 0 then None
    else if enabled == Some(options[0].0) then Some(options[0])
    else FindOption(options[1..], enabled)
  }

  function EnabledCellOf(enabled: Option<bool>): (c: EnabledCell)
    ensures enabled == Some(true) ==> c == Tagged(Success, EnabledLabel)
    ensures enabled == Some(false) ==> c == Tagged(Default, DisabledLabel)
    ensures enabled.None? ==> c == PlainText(DisabledLabel)
  {
    match FindOption(EnabledOptions, enabled)
    case Some(o) => Tagged(o.1, o.2)
    case None => if enabled == Some(true) then PlainText(EnabledLabel) else PlainText(DisabledLabel)
  }

  /** A missing flag falls back to the plain falsy text, and only a missing flag does. */
  lemma EnabledFallbackOnlyWhenMissing(enabled: Option<bool>)
    ensures EnabledCellOf(enabled).PlainText? <==> enabled.None?
    ensures enabled.None? ==> EnabledCellOf(enabled) == PlainText(DisabledLabel)
  {
    if enabled.Some? {
      var b := enabled.value;
      assert enabled == Some(b);
    }
  }

  /** The test-station table shows the flag by truthiness, without a lookup. */
  function StationEnabledCell(enabled: Option<bool>): (c: EnabledCell)
    ensures c.Tagged?
    ensures c.caption == EnabledLabel <==> enabled == Some(true)
  {
    if enabled == Some(true) then Tagged(Success, EnabledLabel) else Tagged(Default, DisabledLabel)
  }

  /** On a present flag both tables show the same cell. */
  lemma EnabledCellsAgree(b: bool)
    ensures StationEnabledCell(Some(b)) == EnabledCellOf(Some(b))
  {
  }
}

=== FILE: login.dfy ===
/**
  The login page: where it returns to after signing in, and how a
  successful login fills the session store.
 */
module Login {
  import opened Common
  import opened AuthStore

  /** The router state the page was opened with: `{from}` when a gate redirected here. */
  datatype NavState = NavState(from: Option<Location>)

  const DashboardFallback: string := "/dashboard"
  const LoginSuccessText: string := "登录成功"

  /** `location.state?.from?.pathname || '/dashboard'`. */
  function ReturnTarget(state: Option<NavState>): (to: string)
    ensures to != ""
    ensures state.Some? && state.value.from.Some? && state.value.from.value.pathname != "" ==>
      to == state.value.from.value.pathname
    ensures state.None? || state.value.from.None? || state.value.from.value.pathname == "" ==> to == DashboardFallback
  {
    if state.Some? && state.value.from.Some? && state.value.from.value.pathname != "" then
      state.value.from.value.pathname
    else DashboardFallback
  }

  /** The fields of the login response the page reads. */
  datatype LoginResponse = LoginResponse(accessToken: string, userId: int, username: string, role: string)

  /** What submitting the form leads to: the store afterwards, the notification, the navigation. */
  datatype LoginOutcome = LoginOutcome(session: Session, toast: Option<string>, nav: Option<Navigation>)

  /**
    `onFinish`: the store is written only once `login` has resolved
    (`reply` is `None` when it rejected, and then nothing happens); on
    success the token and the user info come from the response and the
    page replaces itself with the return target.
   */
  function OnFinish(session: Session, from: string, reply: Option<LoginResponse>): (r: LoginOutcome)
    ensures reply.None? ==> r.session == session && r.toast.None? && r.nav.None?
    ensures reply.Some? ==> r.session.token == Some(reply.value.accessToken)
    ensures reply.Some? ==> r.session.userInfo == Some(UserInfo(reply.value.userId, reply.value.username, reply.value.role))
    ensures reply.Some? ==> r.nav == Some(Navigation(from, true, None)) && r.toast == Some(LoginSuccessText)
  {
    match reply
    case None => LoginOutcome(session, None, None)
    case Some(res) =>
      var s1 := SetToken(session, Some(res.accessToken));
      var s2 := SetUserInfo(s1, Some(UserInfo(res.userId, res.username, res.role)));
      LoginOutcome(s2, Some(LoginSuccessText), Some(Navigation(from, true, None)))
  }

  /** A successful login overwrites the whole session: what was there before does not matter. */
  lemma LoginOverwritesSession(s1: Session, s2: Session, from: string, res: LoginResponse)
    ensures OnFinish(s1, from, Some(res)) == OnFinish(s2, from, Some(res))
    ensures res.accessToken != "" ==> HasToken(OnFinish(s1, from, Some(res)).session)
  {
  }
}

=== FILE: register.dfy ===
/**
  The registration page: the form's field rules, the confirm-password
  validator and the two status banners.
 */
module Register {
  import opened Common
  import RouteGuard
  import InitAdmin
  import Routes

  const UsernameRequiredText: string := "请输入用户名！"
  const UsernameLengthText: string := "用户名长度必须在3-20个字符之间"
  const PasswordRequiredText: string := "请输入密码！"
  const PasswordLengthText: string := "密码长度必须在6-30个字符之间"
  const ConfirmRequiredText: string := "请确认密码！"
  const ConfirmMismatchText: string := "两次输入的密码不一致！"

  /**
    The errors of a field with a `required` rule and a `{min, max}` length
    rule. The length rule is skipped for an empty value (the required rule
    reports it) and counts characters, not UTF-16 code units.
   */
  function LengthRuleErrors(value: string, min: nat, max: nat, requiredText: string, lengthText: string): (errs: seq<string>)
    ensures errs == [] <==> value != "" && min <= |value| <= max
    ensures value == "" ==> errs == [requiredText]
    ensures value != "" && !(min <= |value| <= max) ==> errs == [lengthText]
  {
    if value == "" then [requiredText]
    else if |value| < min || |value| > max then [lengthText]
    else []
  }

  /** The username must be 3 to 20 characters. */
  function UsernameErrors(value: string): (errs: seq<string>)
    ensures errs == [] <==> 3 <= |value| <= 20
  {
    LengthRuleErrors(value, 3, 20, UsernameRequiredText, UsernameLengthText)
  }

  /** The password must be 6 to 30 characters. */
  function PasswordErrors(value: string): (errs: seq<string>)
    ensures errs == [] <==> 6 <= |value| <= 30
  {
    LengthRuleErrors(value, 6, 30, PasswordRequiredText, PasswordLengthText)
  }

  /**
    The registration rule and the first-deployment validator accept the
    same passwords as long as every character is in the Basic Multilingual
    Plane: only there do characters and UTF-16 units coincide.
   */
  lemma PasswordRulesAgreeInBmp(value: string)
    requires InBmp(value)
    ensures PasswordErrors(value) == [] <==> InitAdmin.ValidatePassword(value).Valid?
  {
    JsLengthInBmp(value);
  }

  /** Three emoji: one rule counts three characters, the other six UTF-16 units. */
  const AstralPassword: string := "\U{1F600}\U{1F600}\U{1F600}"

  /** Outside the BMP the two rules part ways: this password is too short to register but sets up the admin. */
  lemma PasswordRulesDisagreeOnAstral()
    ensures PasswordErrors(AstralPassword) == [PasswordLengthText]
    ensures InitAdmin.ValidatePassword(AstralPassword).Valid?
  {
    var p := AstralPassword;
    assert |p| == 3;
    assert JsLength(p) == 2 + JsLength(p[1..]);
    assert JsLength(p[1..]) == 2 + JsLength(p[2..]);
    assert JsLength(p[2..]) == 2 + JsLength(p[3..]);
  }

  /** The fixed administrator name of a first deployment also satisfies the registration rules. */
  lemma AdminUsernameRegistrable()
    ensures UsernameErrors(InitAdmin.AdminUsername) == []
  {
  }

  /** The custom confirm validator: an empty value is left to the required rule. */
  function ConfirmValidator(value: string, password: string): (ok: bool)
    ensures value == "" ==> ok
    ensures value != "" ==> (ok <==> value == password)
  {
    value == "" || password == value
  }

  /** Both confirm rules together: the confirmation must be present and equal to the password. */
  function ConfirmErrors(value: string, password: string): (errs: seq<string>)
    ensures errs == [] <==> value != "" && value == password
    ensures value == "" ==> errs == [ConfirmRequiredText]
  {
    (if value == "" then [ConfirmRequiredText] else [])
      + (if ConfirmValidator(value, password) then [] else [ConfirmMismatchText])
  }

  /** Both forms refuse the same confirmations: a missing one, or one unequal to the password. */
  lemma ConfirmRulesAgree(value: string, password: string)
    ensures ConfirmErrors(value, password) == [] <==> InitAdmin.ValidateConfirmPassword(value, password).Valid?
  {
  }

  /** The "not initialized" banner shows exactly when the probe has data saying first deployment. */
  function ShowsInitBanner(probe: RouteGuard.Probe): (b: bool)
    ensures b <==> probe.data.Some? && probe.data.value.firstDeployment
  {
    match probe.data
    case None => false
    case Some(status) => status.firstDeployment
  }

  /** The probe-failure alert shows exactly when the status query has an error. */
  function ShowsProbeAlert(probe: RouteGuard.Probe): (b: bool)
    ensures b <==> probe.hasError
  {
    probe.hasError
  }

  /**
    The guard never blocks `/register` with its retry panel, so a failed
    status query is reported on the page itself: the warning shows, and
    with no status data the page renders.
   */
  lemma ProbeFailureReportedOnPage(input: RouteGuard.GateInput)
    requires input.path == Routes.RegisterPath && input.probe.hasError
    ensures RouteGuard.Guard(input) != RouteGuard.ErrorPanel
    ensures ShowsProbeAlert(input.probe)
    ensures !RouteGuard.Probing(input.probe) && input.probe.data.None? ==> RouteGuard.Guard(input) == RouteGuard.Render
  {
  }

  /** After the register call: success goes to `/login` (pushing a history entry), failure stays. */
  function AfterRegister(succeeded: bool): (nav: Option<Navigation>)
    ensures nav.Some? <==> succeeded
    ensures nav.Some? ==> nav.value == Navigation("/login", false, None)
  {
    if succeeded then Some(Navigation("/login", false, None)) else None
  }
}

=== FILE: request.dfy ===
/**
  The HTTP client's interceptors: the request interceptor that attaches
  the bearer token, and the response interceptor that turns a non-200
  envelope or a transport failure into a rejection with a notification,
  signing the user out on HTTP 401.
 */
module Request {
  import opened Common
  import opened AuthStore

  type Headers = map<string, string>

  const AuthorizationHeader: string := "Authorization"
  const BearerPrefix: string := "Bearer "
  const DefaultErrorText: string := "Request Error"

  /**
    The request interceptor: with a truthy token the Authorization header
    is set to `Bearer <token>` and every other header is kept; without one
    the headers are left exactly as they were.
   */
  function AttachToken(session: Session, headers: Headers): (h: Headers)
    ensures HasToken(session) ==> AuthorizationHeader in h && h[AuthorizationHeader] == BearerPrefix + session.token.value
    ensures forall k :: k in headers && k != AuthorizationHeader ==> k in h && h[k] == headers[k]
    ensures forall k :: k in h && k != AuthorizationHeader ==> k in headers
    ensures !HasToken(session) ==> h == headers
  {
    if HasToken(session) then headers[AuthorizationHeader := BearerPrefix + session.token.value] else headers
  }

  /** The server can read the token back from the header the interceptor wrote. */
  lemma BearerHeaderCarriesToken(session: Session, headers: Headers)
    requires HasToken(session)
    ensures var v := AttachToken(session, headers)[AuthorizationHeader];
      |v| > |BearerPrefix| && v[..|BearerPrefix|] == BearerPrefix && v[|BearerPrefix|..] == session.token.value
  {
  }

  /** The JSON envelope every endpoint answers with; `code == 200` means success. */
  datatype Envelope<T> = Envelope(code: int, message: Option<string>, data: T)

  datatype HttpResponse<T> = HttpResponse(status: int, body: Envelope<T>)

  /** `error.response` of a failed request: the HTTP status and the body's `message`, if any. */
  datatype ErrorResponse = ErrorResponse(status: int, dataMessage: Option<string>)

  /** A transport-level failure: the server's response if one arrived, and `error.message`. */
  datatype TransportError = TransportError(response: Option<ErrorResponse>, message: Option<string>)

  /** Why a request promise was rejected. */
  datatype Rejection = EnvelopeRejected(message: string) | TransportRejected(error: TransportError)

  datatype Outcome<T> = Resolved(response: HttpResponse<T>) | Rejected(reason: Rejection)

  /** What an interceptor does: the notification it shows, how the promise settles, and the session after it. */
  datatype Reaction<T> = Reaction(toast: Option<string>, outcome: Outcome<T>, session: Session)

  /**
    The success handler: a 200 envelope passes the response through
    untouched; any other code rejects with the envelope's message, or
    "Request Error" when it has none. It never touches the session, even
    for an envelope code of 401.
   */
  function OnResponse<T>(response: HttpResponse<T>, session: Session): (r: Reaction<T>)
    ensures r.session == session
    ensures response.body.code == 200 ==> r.outcome == Resolved(response) && r.toast.None?
    ensures response.body.code != 200 ==> r.outcome.Rejected? && r.outcome.reason.EnvelopeRejected?
    ensures response.body.code != 200 ==> r.toast == Some(r.outcome.reason.message)
    ensures response.body.code != 200 && Truthy(response.body.message) ==> r.outcome.reason.message == response.body.message.value
    ensures response.body.code != 200 && !Truthy(response.body.message) ==> r.outcome.reason.message == DefaultErrorText
  {
    if response.body.code != 200 then
      var text := OrElse(response.body.message, DefaultErrorText);
      Reaction(Some(text), Rejected(EnvelopeRejected(text)), session)
    else
      Reaction(None, Resolved(response), session)
  }

  /** `error.response?.data?.message || error.message || 'Request Error'`. */
  function TransportErrorText(error: TransportError): (text: string)
    ensures text != ""
    ensures error.response.Some? && Truthy(error.response.value.dataMessage) ==> text == error.response.value.dataMessage.value
    ensures (error.response.None? || !Truthy(error.response.value.dataMessage)) && Truthy(error.message) ==> text == error.message.value
    ensures (error.response.None? || !Truthy(error.response.value.dataMessage)) && !Truthy(error.message) ==> text == DefaultErrorText
  {
    var fromBody := if error.response.Some? then error.response.value.dataMessage else None;
    OrElse(fromBody, OrElse(error.message, DefaultErrorText))
  }

  predicate IsUnauthorized(error: TransportError) {
    error.response.Some? && error.response.value.status == 401
  }

  /**
    The failure handler: always shows a notification and always rejects
    with the original error; only an HTTP 401 signs the user out, every
    other failure leaves the session as it was.
   */
  function OnError<T>(error: TransportError, session: Session): (r: Reaction<T>)
    ensures r.outcome == Rejected(TransportRejected(error))
    ensures r.toast == Some(TransportErrorText(error))
    ensures IsUnauthorized(error) ==> r.session == Logout(session) && !HasToken(r.session)
    ensures !IsUnauthorized(error) ==> r.session == session
  {
    var text := TransportErrorText(error);
    var next := if IsUnauthorized(error) then Logout(session) else session;
    Reaction(Some(text), Rejected(TransportRejected(error)), next)
  }

  /** The session changes on the failure path exactly when a signed-in session meets an HTTP 401. */
  lemma {:induction false} OnlyUnauthorizedSignsOut<T>(error: TransportError, session: Session)
    ensures (OnError<T>(error, session).session != session) <==> IsUnauthorized(error) && session != Initial
  {
    var r := OnError<T>(error, session);
    if IsUnauthorized(error) {
      LogoutIdempotent(session);
      assert r.session == Initial;
    }
  }
}

=== FILE: route_guard.dfy ===
/**
  The route gates. `RouteGuard` decides, from the system-status probe,
  the session token, the route's `requireAuth` flag and the current path,
  whether to show a spinner, the probe-failure panel, the page, or a
  redirect. `RequireAuth` is the older gate the router actually wires in
  front of the protected layout: it looks at the token only.
 */
module RouteGuard {
  import opened Common
  import Routes

  /** The payload of the status probe: `firstDeployment` is true while no administrator exists. */
  datatype SystemStatus = SystemStatus(firstDeployment: bool)

  /**
    The status query as its consumers see it. The query is fetched afresh
    on every mount (no stale time, no cache), so `data` may be a previous
    value while a refetch is in flight; the flags are independent inputs.
   */
  datatype Probe = Probe(
    isLoading: bool,
    isFetching: bool,
    isFetchedAfterMount: bool,
    hasError: bool,
    data: Option<SystemStatus>)

  /** Everything the guard reads; `requireAuth` is `None` when the prop is omitted. */
  datatype GateInput = GateInput(probe: Probe, token: Option<string>, requireAuth: Option<bool>, path: string)

  datatype Decision = Loading | ErrorPanel | Render | Redirect(nav: Navigation)

  /** The prop `requireAuth` defaults to true. */
  function RequiresAuth(input: GateInput): bool {
    input.requireAuth.GetOr(true)
  }

  /** The probe has not settled: first load, or a fetch in flight before the first fetch since mount. */
  predicate Probing(p: Probe) {
    p.isLoading || (p.isFetching && !p.isFetchedAfterMount)
  }

  predicate OnLoginOrRegister(path: string) {
    path == Routes.LoginPath || path == Routes.RegisterPath
  }

  /** The condition under which a failed probe blocks the page with a retry panel. */
  predicate ShowsErrorPanel(input: GateInput) {
    input.probe.hasError && RequiresAuth(input) && !Truthy(input.token) && !OnLoginOrRegister(input.path)
  }

  /** A gate redirect: replaces the history entry and carries no state. */
  function GoTo(path: string): Navigation {
    Navigation(path, true, None)
  }

  /** The rules for an uninitialized system (no administrator yet). */
  function UninitializedRule(input: GateInput): Decision {
    if input.path == Routes.InitAdminPath then Render
    else if RequiresAuth(input) && !Truthy(input.token) then Redirect(GoTo(Routes.InitAdminPath))
    else if !RequiresAuth(input) && !Truthy(input.token) && OnLoginOrRegister(input.path) then Redirect(GoTo(Routes.InitAdminPath))
    else Render
  }

  /** The rules for an initialized system. */
  function InitializedRule(input: GateInput): Decision {
    if input.path == Routes.InitAdminPath then Redirect(GoTo(Routes.LoginPath))
    else if RequiresAuth(input) && !Truthy(input.token) then Redirect(GoTo(Routes.LoginPath))
    else if !RequiresAuth(input) && Truthy(input.token) && OnLoginOrRegister(input.path) then Redirect(GoTo(Routes.DashboardPath))
    else Render
  }

  /** `RouteGuard`: the rules in the order the component evaluates them. */
  function Guard(input: GateInput): (d: Decision)
    ensures Probing(input.probe) ==> d == Loading
    ensures d == Loading ==> Probing(input.probe)
    ensures d == ErrorPanel <==> !Probing(input.probe) && ShowsErrorPanel(input)
    ensures d.Redirect? ==> d.nav.replace && d.nav.from.None?
    ensures d.Redirect? ==> d.nav.to in {Routes.InitAdminPath, Routes.LoginPath, Routes.DashboardPath}
    ensures input.probe.data.None? ==> d in {Loading, ErrorPanel, Render}
  {
    if Probing(input.probe) then Loading
    else if ShowsErrorPanel(input) then ErrorPanel
    else match input.probe.data
      case None => Render
      case Some(status) =>
        if status.firstDeployment then UninitializedRule(input) else InitializedRule(input)
  }

  /** The probe settled and the failure panel does not apply: the status rules decide. */
  predicate Settled(input: GateInput) {
    !Probing(input.probe) && !ShowsErrorPanel(input)
  }

  predicate Uninitialized(input: GateInput) {
    input.probe.data.Some? && input.probe.data.value.firstDeployment
  }

  predicate Initialized(input: GateInput) {
    input.probe.data.Some? && !input.probe.data.value.firstDeployment
  }

  /** Omitting `requireAuth` is the same as passing true. */
  lemma RequireAuthDefaultsToTrue(input: GateInput)
    ensures Guard(input.(requireAuth := None)) == Guard(input.(requireAuth := Some(true)))
  {
  }

  /** While uninitialized, the init-admin page renders whatever the token and `requireAuth`. */
  lemma UninitializedInitAdminRenders(input: GateInput)
    requires Settled(input) && Uninitialized(input) && input.path == Routes.InitAdminPath
    ensures Guard(input) == Render
  {
  }

  /** While uninitialized and signed out, protected routes and the login/register pages go to init-admin. */
  lemma UninitializedSignedOutGoesToInitAdmin(input: GateInput)
    requires Settled(input) && Uninitialized(input) && !Truthy(input.token)
    requires input.path != Routes.InitAdminPath
    requires RequiresAuth(input) || OnLoginOrRegister(input.path)
    ensures Guard(input) == Redirect(GoTo(Routes.InitAdminPath))
  {
  }

  /** Once initialized, the init-admin page always sends to login, even with a token. */
  lemma InitializedInitAdminGoesToLogin(input: GateInput)
    requires Settled(input) && Initialized(input) && input.path == Routes.InitAdminPath
    ensures Guard(input) == Redirect(GoTo(Routes.LoginPath))
  {
  }

  /** Once initialized: signed-out on a protected route goes to login; signed-in on login/register goes to the dashboard. */
  lemma InitializedAuthRedirects(input: GateInput)
    requires Settled(input) && Initialized(input) && input.path != Routes.InitAdminPath
    ensures RequiresAuth(input) && !Truthy(input.token) ==> Guard(input) == Redirect(GoTo(Routes.LoginPath))
    ensures !RequiresAuth(input) && Truthy(input.token) && OnLoginOrRegister(input.path) ==>
      Guard(input) == Redirect(GoTo(Routes.DashboardPath))
  {
  }

  /**
    The complete decision table, one line per outcome: each outcome is
    characterised by an exclusive condition on the inputs, so no input can
    reach two destinations, and every unmatched case renders.
   */
  lemma {:induction false} GuardTable(input: GateInput)
    ensures Guard(input) == Loading <==> Probing(input.probe)
    ensures Guard(input) == ErrorPanel <==> !Probing(input.probe) && ShowsErrorPanel(input)
    ensures Guard(input) == Redirect(GoTo(Routes.InitAdminPath)) <==>
      Settled(input) && Uninitialized(input) && input.path != Routes.InitAdminPath && !Truthy(input.token)
      && (RequiresAuth(input) || OnLoginOrRegister(input.path))
    ensures Guard(input) == Redirect(GoTo(Routes.LoginPath)) <==>
      Settled(input) && Initialized(input)
      && (input.path == Routes.InitAdminPath || (RequiresAuth(input) && !Truthy(input.token)))
    ensures Guard(input) == Redirect(GoTo(Routes.DashboardPath)) <==>
      Settled(input) && Initialized(input) && input.path != Routes.InitAdminPath
      && !RequiresAuth(input) && Truthy(input.token) && OnLoginOrRegister(input.path)
    ensures Guard(input) == Render <==>
      Settled(input) && !(Guard(input).Redirect?)
  {
    assert Routes.InitAdminPath != Routes.LoginPath && Routes.InitAdminPath != Routes.DashboardPath
      && Routes.LoginPath != Routes.DashboardPath;
    assert !OnLoginOrRegister(Routes.InitAdminPath);
  }

  /** An uninitialized system never redirects to login or the dashboard; an initialized one never to init-admin. */
  lemma RedirectTargetsFollowStatus(input: GateInput)
    ensures Uninitialized(input) && Guard(input).Redirect? ==> Guard(input).nav.to == Routes.InitAdminPath
    ensures Initialized(input) && Guard(input).Redirect? ==> Guard(input).nav.to != Routes.InitAdminPath
  {
  }

  // ---------------------------------------------------------------------
  // RequireAuth
  // ---------------------------------------------------------------------

  /**
    `RequireAuth`: with a truthy token the children render; otherwise a
    replacing redirect to `/login` carries the current location as `from`.
   */
  function RequireAuth(token: Option<string>, location: Location): (d: Decision)
    ensures d == Render || d == Redirect(Navigation("/login", true, Some(location)))
    ensures d == Render <==> Truthy(token)
  {
    if !Truthy(token) then Redirect(Navigation("/login", true, Some(location))) else Render
  }

  /** Whether `RequireAuth` lets the page through depends on the token alone, never on the location. */
  lemma RequireAuthIgnoresLocation(token: Option<string>, l1: Location, l2: Location)
    ensures RequireAuth(token, l1).Render? <==> RequireAuth(token, l2).Render?
    ensures RequireAuth(token, l1).Redirect? ==> RequireAuth(token, l1).nav.to == RequireAuth(token, l2).nav.to
  {
  }

  /**
    On a settled, initialized system and a protected page other than
    init-admin, the newer gate agrees with the older one: both render with
    a token, and both send a signed-out user to `/login`.
   */
  lemma RequireAuthAgreesWithGuard(input: GateInput, location: Location)
    requires Settled(input) && Initialized(input) && RequiresAuth(input)
    requires input.path != Routes.InitAdminPath
    ensures Guard(input).Render? <==> RequireAuth(input.token, location).Render?
    ensures Guard(input).Redirect? ==> Guard(input).nav.to == RequireAuth(input.token, location).nav.to
  {
  }
}

=== FILE: routes.dfy ===
/**
  The route table of the application (`ROUTES`), its grouping
  (`ROUTE_GROUPS`), the path builder `getPath` and the group test
  `isPathInGroup`.
 */
module Routes {
  import opened Common

  /** The keys of `ROUTES`, in declaration order. */
  datatype RouteKey =
    | Login | Register | InitAdmin
    | Dashboard
    | Projects | InspectionDevices | TestStations
    | OilSamples
    | Users

  const AllKeys: seq<RouteKey> :=
    [Login, Register, InitAdmin, Dashboard, Projects, InspectionDevices, TestStations, OilSamples, Users]

  /** `ROUTES[key]`: every route is an absolute path with no `:param` placeholder. */
  function Path(key: RouteKey): (p: string)
    ensures |p| > 1 && p[0] == '/'
    ensures ':' !in p
  {
    match key
    case Login => "/login"
    case Register => "/register"
    case InitAdmin => "/init-admin"
    case Dashboard => "/dashboard"
    case Projects => "/test-line/projects"
    case InspectionDevices => "/test-line/devices"
    case TestStations => "/test-line/stations"
    case OilSamples => "/sample/oil-samples"
    case Users => "/system/users"
  }

  const LoginPath: string := Path(Login)
  const RegisterPath: string := Path(Register)
  const InitAdminPath: string := Path(InitAdmin)
  const DashboardPath: string := Path(Dashboard)

  lemma AllKeysComplete(key: RouteKey)
    ensures key in AllKeys
  {
  }

  /** No two keys of `ROUTES` share a path. */
  lemma PathsDistinct(k1: RouteKey, k2: RouteKey)
    ensures Path(k1) == Path(k2) ==> k1 == k2
  {
  }

  // ---------------------------------------------------------------------
  // ROUTE_GROUPS and isPathInGroup
  // ---------------------------------------------------------------------

  datatype RouteGroup = AuthGroup | DashboardGroup | TestLineGroup | SampleGroup | SystemGroup

  function GroupKeys(group: RouteGroup): seq<RouteKey> {
    match group
    case AuthGroup => [Login, Register, InitAdmin]
    case DashboardGroup => [Dashboard]
    case TestLineGroup => [Projects, InspectionDevices, TestStations]
    case SampleGroup => [OilSamples]
    case SystemGroup => [Users]
  }

  /** `ROUTE_GROUPS[group]`, as the array of paths the source holds. */
  function GroupPaths(group: RouteGroup): seq<string> {
    var keys := GroupKeys(group);
    seq(|keys|, i requires 0 <= i < |keys| => Path(keys[i]))
  }

  /** `isPathInGroup(path, group)`: a linear `includes` over the group's array. */
  function IsPathInGroup(path: string, group: RouteGroup): (b: bool)
    ensures b <==> exists k :: k in GroupKeys(group) && Path(k) == path
  {
    var keys, paths := GroupKeys(group), GroupPaths(group);
    var b := SeqIncludes(paths, path);
    assert b ==> exists k :: k in keys && Path(k) == path by {
      if b {
        var i :| 0 <= i < |paths| && paths[i] == path;
        assert keys[i] in keys;
      }
    }
    assert (exists k :: k in keys && Path(k) == path) ==> b by {
      if exists k :: k in keys && Path(k) == path {
        var k :| k in keys && Path(k) == path;
        var i :| 0 <= i < |keys| && keys[i] == k;
        assert paths[i] == path;
      }
    }
    b
  }

  /** The AUTH group is exactly the login, register and init-admin paths. */
  lemma AuthGroupExactly(path: string)
    ensures IsPathInGroup(path, AuthGroup) <==> path in {"/login", "/register", "/init-admin"}
  {
    assert Path(Login) == "/login" && Path(Register) == "/register" && Path(InitAdmin) == "/init-admin";
  }

  /** The groups partition the route table: every route lies in exactly one group. */
  lemma {:induction false} GroupsPartitionRoutes(key: RouteKey, group: RouteGroup)
    ensures IsPathInGroup(Path(key), group) <==> key in GroupKeys(group)
  {
    if IsPathInGroup(Path(key), group) {
      var k :| k in GroupKeys(group) && Path(k) == Path(key);
      PathsDistinct(k, key);
    }
  }

  // ---------------------------------------------------------------------
  // getPath
  // ---------------------------------------------------------------------

  /** A parameter value of `getPath`: `string | number` (integral numbers). */
  datatype ParamValue = Text(s: string) | Number(n: int)

  /** `String(value)`. */
  function ParamString(v: ParamValue): string {
    match v
    case Text(s) => s
    case Number(n) => IntToString(n)
  }

  /**
    The replacement text `String.prototype.replace` inserts for a string
    pattern: `$$`, `$&`, `` $` `` and `$'` are expanded, everything else
    (including `$1` and `$<`, as a string pattern has no groups) is copied.
   */
  function ExpandReplacement(rep: string, matched: string, before: string, after: string): (r: string)
    ensures '$' !in rep ==> r == rep
  {
    if |rep| == 0 then ""
    else if rep[0] == '$' && |rep| >= 2 && rep[1] == '$' then
      "$" + ExpandReplacement(rep[2..], matched, before, after)
    else if rep[0] == '$' && |rep| >= 2 && rep[1] == '&' then
      matched + ExpandReplacement(rep[2..], matched, before, after)
    else if rep[0] == '$' && |rep| >= 2 && rep[1] == '`' then
      before + ExpandReplacement(rep[2..], matched, before, after)
    else if rep[0] == '$' && |rep| >= 2 && rep[1] == '\'' then
      after + ExpandReplacement(rep[2..], matched, before, after)
    else
      [rep[0]] + ExpandReplacement(rep[1..], matched, before, after)
  }

  /** `s.replace(pat, rep)` with a string pattern: only the first occurrence is replaced. */
  function ReplaceFirst(s: string, pat: string, rep: string): string {
    match IndexOf(s, pat)
    case None => s
    case Some(i) =>
      s[..i] + ExpandReplacement(rep, pat, s[..i], s[i + |pat|..]) + s[i + |pat|..]
  }

  /** Replacing at the first occurrence keeps the text before it and everything after it. */
  lemma ReplaceFirstAt(s: string, pat: string, rep: string, i: nat)
    requires OccursAt(s, pat, i)
    requires forall j :: 0 <= j < i ==> !OccursAt(s, pat, j)
    requires '$' !in rep
    ensures ReplaceFirst(s, pat, rep) == s[..i] + rep + s[i + |pat|..]
  {
    var r := IndexOf(s, pat);
    assert r.Some?;
    assert r.value == i;
  }

  /** A pattern that does not occur leaves the string unchanged. */
  lemma ReplaceFirstAbsent(s: string, pat: string, rep: string)
    requires forall i :: !OccursAt(s, pat, i)
    ensures ReplaceFirst(s, pat, rep) == s
  {
  }

  /** Applies the `Object.entries(params)` replacements in order. */
  function ApplyParams(path: string, entries: seq<(string, ParamValue)>): string
    decreases |entries|
  {
    if |entries| == 0 then path
    else ApplyParams(ReplaceFirst(path, ":" + entries[0].0, ParamString(entries[0].1)), entries[1..])
  }

  lemma {:induction false} ApplyParamsWithoutPlaceholders(path: string, entries: seq<(string, ParamValue)>)
    requires ':' !in path
    ensures ApplyParams(path, entries) == path
    decreases |entries|
  {
    if |entries| > 0 {
      var pat := ":" + entries[0].0;
      forall i
        ensures !OccursAt(path, pat, i)
      {
        if 0 <= i && i + |pat| <= |path| {
          assert path[i] in path;
          assert path[i..i + |pat|][0] == path[i] != pat[0];
        }
      }
      ReplaceFirstAbsent(path, pat, ParamString(entries[0].1));
      ApplyParamsWithoutPlaceholders(path, entries[1..]);
    }
  }

  /**
    `getPath(key, params)`: since no route holds a `:param` placeholder,
    the result is always `ROUTES[key]`, whatever the parameters.
   */
  function GetPath(key: RouteKey, params: Option<seq<(string, ParamValue)>>): (p: string)
    ensures p == Path(key)
  {
    match params
    case None => Path(key)
    case Some(entries) =>
      ApplyParamsWithoutPlaceholders(Path(key), entries);
      ApplyParams(Path(key), entries)
  }
}

=== FILE: scenarios.dfy ===
/**
  End-to-end journeys through several parts of the model: an expired
  session met by the response interceptor, the protected-route gate and
  the login page working together.
 */
module Scenarios {
  import opened Common
  import opened AuthStore
  import opened Request
  import opened RouteGuard
  import opened Login

  /**
    A 401 from any request signs the user out, and the next protected
    page then sends them to `/login`, remembering where they were.
   */
  lemma ExpiredSessionLeadsToLogin<T>(error: TransportError, session: Session, location: Location)
    requires IsUnauthorized(error)
    ensures var after := OnError<T>(error, session).session;
      RequireAuth(after.token, location) == Redirect(Navigation(Routes.LoginPath, true, Some(location)))
  {
  }

  /**
    A signed-out visit to a protected page, followed by a successful
    login, lands back on that page, and the page then renders.
   */
  lemma LoginReturnsToProtectedPage(session: Session, location: Location, res: LoginResponse)
    requires !Truthy(session.token) && location.pathname != "" && res.accessToken != ""
    ensures var gate := RequireAuth(session.token, location);
      gate.Redirect? &&
      var target := ReturnTarget(Some(NavState(gate.nav.from)));
      var outcome := Login.OnFinish(session, target, Some(res));
      target == location.pathname
      && outcome.nav == Some(Navigation(location.pathname, true, None))
      && RequireAuth(outcome.session.token, location) == Render
  {
    var gate := RequireAuth(session.token, location);
    assert gate.nav.from == Some(location);
  }

  /** Only a 401 can lock a signed-in user out of a protected page. */
  lemma OtherFailuresKeepAccess<T>(error: TransportError, session: Session, location: Location)
    requires !IsUnauthorized(error) && Truthy(session.token)
    ensures RequireAuth(OnError<T>(error, session).session.token, location) == Render
  {
  }
}
